=== FILE: README.md ===
# Zora-Bot signal engine, modelled in Dafny

Zora-Bot (`zora_bot.py`) is a market scanner. It lists every USDT spot pair
that is trading and not a leveraged token. Then it runs passes forever,
sleeping twenty seconds after each one. In a pass it fetches each pair's latest
fifteen-minute candles and computes five indicators on them:

- a simple moving average;
- RSI;
- Bollinger bands;
- a rolling z-score;
- ATR.

It prints a LONG or SHORT alert when a three-part condition (the *triad*)
holds and the projected move to a target clears a minimum percentage. The
triad is: price outside the band, RSI beyond 30/70, and z-score beyond ±2.
A dedup map keyed by `symbol + "_LONG"` / `symbol + "_SHORT"` remembers the
close time of the last alerted candle. An alert is suppressed when the latest
candle's close time equals the remembered one. Counters track LONG alerts,
SHORT alerts and passes.

This project models that core with ideal `real` arithmetic and proves
properties of it.

- `wrappers.dfy`, module `Wrappers`: `Option`.
- `series.dfy`, module `Series`: Python's `sum`, `statistics.mean`, `max`,
  `min`, negative-index access and `s[-k:]` slicing over real lists, with
  their bounds.
- `indicators.dfy`, module `Indicators`: `sma`, `rsi`, `bollinger`, `zscore`
  and `atr`. Each returns `None` when the history is too short. `rsi` and
  `atr` are also written as the source's loops, with methods proved equal to
  the functional definitions. The population standard deviation is a
  caller-supplied function `pstdev`. It is constrained by `IsPstdev` to be
  non-negative and zero exactly on a constant window.
- `signals.dfy`, module `Signals`: the two triads, the swing high/low over
  the last fifty candles, the target, the percentage move and the minimum-move
  filter.
- `scan.dfy`, module `Scan`:
  - the per-symbol step: request, indicators, LONG block, SHORT block, and
    exceptions swallowed as skips;
  - the pass, which bumps the cycle counter and folds the step over the
    symbol list;
  - a run of passes;
  - the deduplication invariant.

  Network replies come in as `Fetch` values. Printed alerts go out as
  `Event`s.
- `symbols.dfy`, module `Symbols`: the exchange-info filter. The source's
  loop is written as a method and proved equal to a recursive definition.

Design facts the proofs bring out:

- **The z-score leg adds nothing.** With the default width of two
  deviations, `z < -2` holds exactly when the price is below the lower band,
  and `z > 2` exactly when it is above the upper band (`ZscoreLegMatchesBand`).
- **A step emits at most one alert.** No RSI is both below 30 and above 70
  (`NeverBothDirections`, `StepRecords`).
- **Deduplication depends on each symbol's close times never going back.**
  The map keeps only the latest close time per key, and compares with `!=`.
  So "no candle is alerted twice" holds when no symbol's close times go back
  (`AlertsNeverRepeat`). Symbols are independent: one pair returning a stale
  candle constrains no other pair (`StaleSymbolIsInOrder`). When one symbol's
  candle list arrives with an older close time after a newer one, that older
  candle can be alerted a second time (`BackwardClockRepeats`).
- **The leverage filter is a substring test.** It also drops ordinary
  tickers whose names contain `UP`, `DOWN`, `BULL` or `BEAR`, such as
  `JUPUSDT` or `SUPERUSDT` (`SubstringTestDropsOrdinaryTickers`).
- **The swing extremes are read before the two blocks run** (`Read`), while
  the source computes them inside each block. Both are pure, and on a
  non-empty list neither can raise, so the outcome is the same.

## Model

| member | source | states |
|---|---|---|
| Series.Max | zora_bot.py:224 | Python's `max` of a non-empty list is one of its elements and no element exceeds it |
| Series.Min | zora_bot.py:239 | Python's `min` of a non-empty list is one of its elements and no element is below it |
| Series.AtIsFirstOfTail | zora_bot.py:96 | `s[i]` with a negative index is the first element of `s[i:]` |
| Series.Tail | zora_bot.py:87 | `s[-k:]` is the last `k` elements when there are more than `k`; otherwise it is the whole list, and `k = 0` also gives the whole list |
| Indicators.Sma | zora_bot.py:84-87 | `None` exactly when there are fewer than `period` values; otherwise the mean of the last `period` values, which lies between their minimum and maximum |
| Indicators.SmaUsesLastWindow | zora_bot.py:84-87 | prepending older history never changes the SMA |
| Indicators.SmaOfFlatWindow | zora_bot.py:84-87 | the SMA of a constant window is that constant, the last value |
| Indicators.Gain | zora_bot.py:97 | a change's gain is never negative, at least the change, and is either the change or 0 |
| Indicators.Loss | zora_bot.py:98 | a change's loss is never negative and at least the fall, and the gain minus the loss is the change itself |
| Indicators.RsiFromAverages | zora_bot.py:99-104 | the closing formula stays within 0..100, and gives 100 exactly when the average loss is zero |
| Indicators.RsiOfDeltas | zora_bot.py:93-104 | RSI over a list of changes lies in 0..100, and is 100 exactly when no change is negative |
| Indicators.WindowDeltas | zora_bot.py:95-96 | the changes RSI averages are the changes into each of the last `period` closes from the close before it |
| Indicators.Rsi | zora_bot.py:90-104 | `None` exactly when there are fewer than `period + 1` closes; otherwise a value within 0..100 |
| Indicators.RsiHundredIff | zora_bot.py:101-102 | RSI is 100 exactly when none of the last `period` closes fell |
| Indicators.RsiUsesLastWindow | zora_bot.py:90-104 | RSI depends only on the last `period + 1` closes |
| Indicators.RsiLoop | zora_bot.py:90-104 | the source's loop over `range(1, period + 1)` with negative indices computes the RSI definition |
| Indicators.Std | zora_bot.py:112 | the window deviation is `pstdev` for two or more points and 0 otherwise; it is never negative, and zero exactly on a constant window |
| Indicators.Bollinger | zora_bot.py:107-115 | `None` exactly when the history is shorter than the period; the middle band is the SMA; the bands are symmetric about it and ordered for a non-negative width; they coincide exactly when the width is 0 or the window is constant |
| Indicators.BandsAroundMean | zora_bot.py:110-115 | the bands lie `mult` window deviations either side of the window mean |
| Indicators.Zscore | zora_bot.py:118-126 | `None` exactly when the history is shorter than the period; 0 on a constant window; negative exactly when the last close is below the window mean, positive exactly when above |
| Indicators.ZscoreScaled | zora_bot.py:121-126 | the z-score times the window deviation is the last close's distance from the mean |
| Indicators.TrueRange | zora_bot.py:137-141 | the true range is at least the candle's range and both gaps to the previous close, equals one of the three, and is never negative |
| Indicators.TrueRanges | zora_bot.py:132-142 | entry `j` is the true range of the `j`-th of the last `period` candles, measured against the close just before it |
| Indicators.Atr | zora_bot.py:129-143 | `None` exactly when there are fewer than `period + 1` candles; otherwise never negative and at least the average high-low spread of the window |
| Indicators.AtrUsesLastWindow | zora_bot.py:129-143 | ATR depends only on the last `period + 1` candles |
| Indicators.AtrLoop | zora_bot.py:132-143 | the source's loop over `range(-period, 0)` reading `closes[i - 1]` computes the ATR definition |
| Signals.Triggered | zora_bot.py:220-235 | the LONG triad is price below the lower band, RSI below 30 and z below -2; the SHORT triad mirrors it above the upper band, RSI above 70 and z above 2 |
| Signals.NeverBothDirections | zora_bot.py:220-235 | the LONG and SHORT triads never hold together |
| Signals.ZscoreBeyondTwo | zora_bot.py:118-126 | with a positive deviation, the z-score is beyond ±2 exactly when the last close is more than two deviations from the mean on that side |
| Signals.ZscoreLegMatchesBand | zora_bot.py:220-235 | with the default two-deviation bands, each triad's z-score leg holds exactly when its band leg does |
| Signals.SwingStart | zora_bot.py:224 | the swing window holds the last fifty candles, or all of them when there are fewer |
| Signals.SwingHigh | zora_bot.py:224 | the swing high is one of the window's highs and no high in the window exceeds it |
| Signals.SwingLow | zora_bot.py:239 | the swing low is one of the window's lows and no low in the window is below it |
| Signals.Target | zora_bot.py:224-241 | a LONG target is the lower of the swing high and `price + 1.5·atr`; a SHORT target is the higher of the swing low and `price - 1.5·atr` |
| Signals.TargetBeyondPriceIff | zora_bot.py:224-241 | with ATR at least 0, a LONG target is above the price exactly when the swing high is and ATR is positive; SHORT mirrors this |
| Signals.Move | zora_bot.py:227-242 | for a positive price, the projected move is positive exactly when the target lies beyond the price in the trade's direction |
| Signals.MoveAtLeastIff | zora_bot.py:227-244 | for a positive price, the move reaches `minPct` exactly when the target is at least `minPct` percent of the price beyond it |
| Signals.ThresholdForcesDirection | zora_bot.py:227-244 | a positive threshold that is met puts the target strictly above the price for LONG and strictly below it for SHORT |
| Signals.AlertNeedsBothBounds | zora_bot.py:224-244 | an alert needs both the swing extreme and the ATR projection to clear the threshold |
| Signals.SubThresholdLongIsDropped | zora_bot.py:224-229 | at price 100, ATR 2 and swing high 106 the target is 103, a 3% move, so the alert is filtered out |
| Scan.Key | zora_bot.py:222-247 | a dedup key starts with its symbol and is longer than it |
| Scan.Alerted | zora_bot.py:222-238 | a candle is already alerted when its key is in the map with this close time |
| Scan.KeyInjective | zora_bot.py:222-247 | two dedup keys are equal exactly when their symbols and directions are |
| Scan.Indicate | zora_bot.py:210-217 | all four indicators are present exactly when there are at least 20 candles; RSI is then within 0..100, ATR is at least 0, and the bands are ordered |
| Scan.Read | zora_bot.py:207-224 | a reading exists exactly when there are at least 20 candles; it carries the last close, its close time, the indicators and the swing extremes |
| Scan.CallsExclusive | zora_bot.py:220-244 | no reading calls for both directions |
| Scan.CallsIff | zora_bot.py:220-244 | for a positive price, a reading calls for an alert exactly when the triad holds and the target clears the price by the minimum move |
| Scan.SoundAlertWithinBounds | zora_bot.py:224-244 | a printed alert at a positive price has its target strictly beyond the price in the trade's direction, at least the minimum percent away, and no further than the swing extreme or the 1.5 ATR projection |
| Scan.Consider | zora_bot.py:219-247 | one block raises exactly when its triad holds on a new candle at price 0; otherwise it emits at most one alert, and emits one exactly when the reading calls for it and the key does not hold this candle; the alert carries the symbol, direction, close time and price, the target that is the lower (LONG) or higher (SHORT) of the swing extreme and the 1.5 ATR projection, and the percent move to that target, which reaches the direction's minimum; the alert is recorded |
| Scan.Evaluate | zora_bot.py:219-250 | a raised block leaves the state untouched and emits nothing; a step without alerts leaves the state untouched |
| Scan.EvaluateTally | zora_bot.py:231-246 | the counters grow by exactly the alerts emitted |
| Scan.EvaluateStores | zora_bot.py:232-247 | only the symbol's two keys change; no key is dropped; the only value written is the candle's close time |
| Scan.EvaluateRecords | zora_bot.py:219-247 | at most one alert per step, for this symbol and candle, carrying the reading's price, its target and a percent move that reaches the minimum, and remembered in the map |
| Scan.EvaluateAlertIff | zora_bot.py:220-247 | an alert in a direction is emitted exactly when the reading calls for one and the key does not hold this candle |
| Scan.Observe | zora_bot.py:204-217 | a failed request, an empty candle list and fewer than 20 candles each end the step with their own reason; otherwise the blocks see the candles' reading |
| Scan.StepOn | zora_bot.py:219-250 | a skipped symbol leaves the state and the counters unchanged and emits nothing; a zero price is the only reason a reading is skipped |
| Scan.Step | zora_bot.py:204-250 | each way a step can stop corresponds to its own shape of request result; a division by zero needs a zero last close; a step without alerts changes nothing |
| Scan.StepTally | zora_bot.py:231-246 | one step's counters grow by its alerts and the cycle counter is unchanged |
| Scan.StepStores | zora_bot.py:232-247 | a step touches only its symbol's keys and writes only the close time it saw |
| Scan.StepRecords | zora_bot.py:219-247 | a step emits at most one alert, only from a usable candle list, for its symbol and candle, with the latest price, its target and a percent move that reaches the minimum, and remembers it |
| Scan.StepOnAlertIff | zora_bot.py:220-247 | on a reading, an alert is emitted exactly when the reading calls for it and its candle is new for the key |
| Scan.StepAlertIff | zora_bot.py:204-247 | on a candle list, an alert in a direction is emitted exactly when the candles fire in that direction and the last close time is not already stored for the key |
| Scan.RepeatOnIsSilent | zora_bot.py:222-238 | repeating a step on the same reading emits nothing and changes nothing |
| Scan.RepeatIsSilent | zora_bot.py:204-247 | repeating a step on the same request result emits nothing and changes nothing |
| Scan.ScanSymbols | zora_bot.py:203-250 | over a pass's symbols, the counters grow by exactly the alerts emitted |
| Scan.ScanStaysInList | zora_bot.py:203 | a pass only alerts for symbols in its list |
| Scan.ScanAppend | zora_bot.py:203-250 | scanning two symbol lists in turn is scanning their concatenation |
| Scan.SkippedIsInvisible | zora_bot.py:215-217 | a skipped symbol leaves no trace; the pass equals the pass without it, so later symbols are unaffected |
| Scan.Observed | zora_bot.py:205 | each symbol's fetch is observed independently, in list order |
| Scan.Pass | zora_bot.py:201-250 | a pass adds one to the cycle counter, the signal counters grow by the alerts emitted, and every alert names a listed symbol |
| Scan.FailedFetchIsInvisible | zora_bot.py:249-250 | a symbol whose request failed leaves no trace in the pass |
| Scan.Run | zora_bot.py:201-254 | after `n` passes the cycle counter has grown by `n` and each signal counter by the alerts of its direction |
| Scan.StatsFromStart | zora_bot.py:34-38 | from start-up, the panel shows the number of passes and the number of LONG and SHORT alerts emitted |
| Scan.StepKeepsBounded | zora_bot.py:232-247 | after a step, every close time the map holds for a symbol is still no later than the latest candle seen for that symbol |
| Scan.StepKeepsCovered | zora_bot.py:222-247 | a step on a candle not older than its symbol's latest keeps every logged alert remembered in the map, at or after its own candle |
| Scan.StepKeepsDeduplicated | zora_bot.py:222-247 | a step on a candle not older than its symbol's latest adds no repeat to an alert log the map covers |
| Scan.ScanKeepsDedup | zora_bot.py:203-250 | a pass in which no symbol's close times go back keeps the alert log free of repeats |
| Scan.RunKeepsDedup | zora_bot.py:201-250 | a run in which no symbol's close times go back keeps the alert log free of repeats |
| Scan.AlertsNeverRepeat | zora_bot.py:222-247 | from start-up, when no symbol's close times go back, no candle is alerted twice for the same symbol and direction; other symbols' close times do not matter |
| Scan.StaleSymbolIsInOrder | zora_bot.py:222-247 | the ordering hypothesis is per symbol: a pass where `B`'s candle is older than `A`'s meets it, and one symbol's close times 1, 2, 1 do not |
| Scan.DipAlerts | zora_bot.py:219-232 | a deep dip on a candle not yet in the map is alerted LONG |
| Scan.BackwardClockAloneIsSafe | zora_bot.py:222-232 | close times 2, then 1 on one symbol break the ordering hypothesis, yet the two alerts are for different candles, so the hypothesis is sufficient but not necessary |
| Scan.BackwardClockRepeats | zora_bot.py:222-232 | when close times 1, 2, 1 arrive in turn, the candle with close time 1 is alerted twice |
| Symbols.ContainsIff | zora_bot.py:64 | Python's substring test holds exactly when the marker occurs at some index of the name |
| Symbols.UsdtSymbols | zora_bot.py:58-66 | every kept symbol is the name of an entry that is trading, quoted in USDT and marker-free, and every such entry's name is kept; never more names than entries |
| Symbols.UsdtSymbolsAppend | zora_bot.py:58-66 | filtering two lists in turn is filtering their concatenation |
| Symbols.KeptInOrder | zora_bot.py:57-67 | the kept names are an order-preserving subsequence of the listed names |
| Symbols.GetUsdtSymbols | zora_bot.py:57-67 | the source's loop with its three `continue`s computes the filter |
| Symbols.LeveragedTokensDropped | zora_bot.py:64-65 | leveraged tokens such as `BTCUPUSDT` and `ETHBEARUSDT` are dropped |
| Symbols.SubstringTestDropsOrdinaryTickers | zora_bot.py:64-65 | `JUPUSDT` and `SUPERUSDT` are dropped too, because they contain `UP` |
| Symbols.PlainPairKept | zora_bot.py:58-66 | a trading USDT pair with no marker in its name, `BTCUSDT`, is kept |

## Left out

- Network access is replaced by values handed in:
  - The exchange-info request and its JSON (`zora_bot.py:52-56`) become a list of `SymbolInfo` records.
  - The kline request and its parsing (`zora_bot.py:70-81`) become one `Fetch` per symbol, either candles or a failure.
  - Any raised request or parsing error is the single case `FetchFailed`.
- The start-up failure path (`zora_bot.py:193-197`) is not modelled. If the symbol list cannot be fetched, the program prints an error and returns before any scan, so a run starts from an already fetched list.
- Printing, colouring, log files, `human_time`, the alert banners and the stats panel (`zora_bot.py:45-48`, `146-184`, `252-253`) are not modelled. An alert is the `Event` it would print, and an emitted alert is always counted and recorded.
- The failure of `human_time` is not modelled. `long_signal` and `short_signal` (`zora_bot.py:165-184`) call it before the counter and map updates (`230-232`, `245-247`). For a close time outside the range `datetime` can represent, it raises inside the `try`. The source then prints, counts and records nothing. The model's close time is an unbounded integer, so there such a candle is alerted, counted and recorded.
- The failure of `log_event` is not modelled. When the log file cannot be opened or written (`zora_bot.py:45-48`, called at `173` and `184`), the banner has already been printed, but the alert is neither counted nor stored. So the same candle is announced again on the next pass. The model has no file system, and every alert it emits is counted and stored.
- The endless `while True` loop and `time.sleep` are modelled as a run over a finite sequence of passes.
- Arithmetic is ideal `real`, not IEEE-754. Rounding, infinities and NaN comparisons are not modelled.
- The square root inside `statistics.pstdev` is not modelled. `pstdev` is a parameter that satisfies `IsPstdev`: never negative, and zero exactly on a constant window. Every property above holds for every such function.
- Indicators.Sma, Indicators.Rsi, Indicators.Bollinger, Indicators.Zscore and Indicators.Atr require `period >= 1`. For `period = 0`, Python's `s[-0:]` is the whole list and `rsi` divides by zero; the scanner only ever passes 14 and 20.
- Indicators.Atr requires the high, low and close lists to have equal length. The scanner builds all three from one kline response, and the source reads them at the same indices.
- Indicators.Bollinger returns `Option<Bands>` in place of the `(None, None, None)` triple. The only caller tests all three parts together.
- Scan.StatsFromStart counts the alerts the model emits. Because of the two failures above, the source can print a banner that is never counted. It can also raise before printing anything.
- Scan.AlertsNeverRepeat assumes that no symbol's close times go back. This is a simple sufficient condition, not a necessary one: close times that go back only once, to a candle never alerted, cause no repeat (`Scan.BackwardClockAloneIsSafe`). The source keeps only the latest alerted close time per key, so it repeats an alert only when a candle that was already alerted comes back after a later candle replaced it in the map. The assumption is per symbol: each symbol has its own clock, and a stale candle for one pair does not affect another. `Scan.BackwardClockRepeats` shows that repeat, with one symbol's close times 1, 2, 1.
- Inside the per-symbol `try`, the source raises for a failed request, an empty candle list (reading `closes[-1]`) and a division by a zero price; the model records each as a `Skip` and leaves the state unchanged. The indicators run on any non-empty candle list and return `None` below their periods; the swing extremes are read only once all indicators exist, so on at least twenty candles; none of them can raise. The `human_time` and `log_event` failures listed above are the remaining paths, and they are not modelled.

=== FILE: indicators.dfy ===
/** The indicator library: simple moving average, RSI, Bollinger bands,
    rolling z-score and average true range, each over the latest samples of
    a price history and each answering `None` when the history is too short.
    Arithmetic is ideal (`real`). The population standard deviation is
    supplied by the caller as a function `pstdev` satisfying `IsPstdev`. */
module Indicators {
  import opened Wrappers
  import opened Series

  /** Default periods and band width the scanner calls the indicators with. */
  const RsiPeriod: nat := 14
  const BandPeriod: nat := 20
  const BandMult: real := 2.0
  const AtrPeriod: nat := 14

  // ---------------------------------------------------------------- SMA

  /** `sma`: the mean of the last `period` values. */
  function Sma(values: seq<real>, period: nat): (r: Option<real>)
    requires period >= 1
    ensures r.None? <==> |values| < period
    ensures r.Some? ==> Min(values[|values| - period..]) <= r.value <= Max(values[|values| - period..])
    ensures r.Some? ==> r.value == Mean(values[|values| - period..])
  {
    if |values| < period then None
    else
      var w := Tail(values, period);
      assert w == values[|values| - period..];
      MeanBounds(w);
      Some(Mean(w))
  }

  /** `sma` looks at nothing older than its window. */
  lemma SmaUsesLastWindow(older: seq<real>, values: seq<real>, period: nat)
    requires 1 <= period <= |values|
    ensures Sma(older + values, period) == Sma(values, period)
  {
    TailOfAppend(older, values, period);
  }

  /** The average of a constant window is that constant. */
  lemma SmaOfFlatWindow(values: seq<real>, period: nat)
    requires 1 <= period <= |values|
    requires Flat(values[|values| - period..])
    ensures Sma(values, period) == Some(values[|values| - 1])
  {
    var w := Tail(values, period);
    MeanOfFlat(w);
    assert w[|w| - 1] == values[|values| - 1];
  }

  // ---------------------------------------------------------------- RSI

  /** Consecutive differences `w[k+1] - w[k]` of a window, oldest first. */
  function Deltas(w: seq<real>): (ds: seq<real>)
    requires |w| >= 1
    ensures |ds| == |w| - 1
    ensures forall k :: 0 <= k < |ds| ==> ds[k] == w[k + 1] - w[k]
  {
    seq(|w| - 1, k requires 0 <= k < |w| - 1 => w[k + 1] - w[k])
  }

  /** `max(change, 0.0)`. */
  function Gain(change: real): (g: real)
    ensures 0.0 <= g && change <= g
    ensures g == change || g == 0.0
  {
    if change >= 0.0 then change else 0.0
  }

  /** `max(-change, 0.0)`. */
  function Loss(change: real): (l: real)
    ensures 0.0 <= l && -change <= l
    ensures Gain(change) - l == change
  {
    if -change >= 0.0 then -change else 0.0
  }

  function Gains(ds: seq<real>): (gs: seq<real>)
    ensures |gs| == |ds|
    ensures forall k :: 0 <= k < |ds| ==> gs[k] == Gain(ds[k]) && 0.0 <= gs[k]
  {
    seq(|ds|, k requires 0 <= k < |ds| => Gain(ds[k]))
  }

  function Losses(ds: seq<real>): (ls: seq<real>)
    ensures |ls| == |ds|
    ensures forall k :: 0 <= k < |ds| ==> ls[k] == Loss(ds[k]) && 0.0 <= ls[k]
  {
    seq(|ds|, k requires 0 <= k < |ds| => Loss(ds[k]))
  }

  /** No delta is negative exactly when the total loss is zero. */
  lemma NoLossIff(ds: seq<real>)
    ensures 0.0 <= Sum(Losses(ds)) && 0.0 <= Sum(Gains(ds))
    ensures Sum(Losses(ds)) == 0.0 <==> forall k :: 0 <= k < |ds| ==> 0.0 <= ds[k]
  {
    var ls := Losses(ds);
    SumZeroIff(ls);
    SumZeroIff(Gains(ds));
    if Sum(ls) != 0.0 {
      var j :| 0 <= j < |ls| && ls[j] != 0.0;
      assert ds[j] < 0.0;
    }
  }

  /** The closing RSI formula stays in [0, 100) for a non-negative gain and a positive loss. */
  lemma RsiFormulaBounds(avgGain: real, avgLoss: real)
    requires 0.0 <= avgGain && 0.0 < avgLoss
    ensures 0.0 <= 100.0 - 100.0 / (1.0 + avgGain / avgLoss) < 100.0
  {
    var rs := avgGain / avgLoss;
    assert 0.0 <= rs;
    var q := 100.0 / (1.0 + rs);
    assert q * (1.0 + rs) == 100.0;
    assert 0.0 < q <= 100.0;
  }

  /** The closing step of `rsi` from the two averages: 100 when nothing was
      lost, else `100 - 100 / (1 + rs)` with `rs = avgGain / avgLoss`. */
  function RsiFromAverages(avgGain: real, avgLoss: real): (v: real)
    requires 0.0 <= avgGain && 0.0 <= avgLoss
    ensures 0.0 <= v <= 100.0
    ensures v == 100.0 <==> avgLoss == 0.0
  {
    if avgLoss == 0.0 then 100.0
    else
      RsiFormulaBounds(avgGain, avgLoss);
      var rs := avgGain / avgLoss;
      100.0 - 100.0 / (1.0 + rs)
  }

  /** The RSI of a window's deltas, both averages taken over `period`. */
  function RsiOfDeltas(ds: seq<real>, period: nat): (v: real)
    requires period >= 1
    ensures 0.0 <= v <= 100.0
    ensures v == 100.0 <==> forall k :: 0 <= k < |ds| ==> 0.0 <= ds[k]
  {
    var totalGain, totalLoss := Sum(Gains(ds)), Sum(Losses(ds));
    NoLossIff(ds);
    DivideSign(totalGain, period as real);
    DivideSign(totalLoss, period as real);
    RsiFromAverages(totalGain / (period as real), totalLoss / (period as real))
  }

  /** The change into close `k` from the close before it. */
  function Change(closes: seq<real>, k: nat): real
    requires 1 <= k < |closes|
  {
    closes[k] - closes[k - 1]
  }

  /** The deltas of the last `period + 1` closes are the changes into each
      of the last `period` closes. */
  lemma WindowDeltas(closes: seq<real>, period: nat)
    requires period + 1 <= |closes|
    ensures |Deltas(Tail(closes, period + 1))| == period
    ensures forall k :: |closes| - period <= k < |closes| ==>
      Deltas(Tail(closes, period + 1))[k - (|closes| - period)] == Change(closes, k)
  {
    var w := Tail(closes, period + 1);
    var start := |closes| - period - 1;
    assert w == closes[start..];
    forall k | |closes| - period <= k < |closes|
      ensures Deltas(w)[k - (|closes| - period)] == Change(closes, k)
    {
      var j := k - (|closes| - period);
      assert w[j + 1] == closes[k] && w[j] == closes[k - 1];
    }
  }

  /** `rsi`: simple-average relative strength over the last `period` deltas. */
  function Rsi(closes: seq<real>, period: nat): (r: Option<real>)
    requires period >= 1
    ensures r.None? <==> |closes| < period + 1
    ensures r.Some? ==> 0.0 <= r.value <= 100.0
  {
    if |closes| < period + 1 then None
    else Some(RsiOfDeltas(Deltas(Tail(closes, period + 1)), period))
  }

  /** `rsi` is 100 exactly when no close of its window fell. */
  lemma RsiHundredIff(closes: seq<real>, period: nat)
    requires 1 <= period && period + 1 <= |closes|
    ensures Rsi(closes, period).value == 100.0 <==>
      forall k :: |closes| - period <= k < |closes| ==> 0.0 <= Change(closes, k)
  {
    var ds := Deltas(Tail(closes, period + 1));
    WindowDeltas(closes, period);
    forall k | |closes| - period <= k < |closes|
      ensures ds[k - (|closes| - period)] == Change(closes, k)
    {
    }
    if forall k :: |closes| - period <= k < |closes| ==> 0.0 <= Change(closes, k) {
      forall j | 0 <= j < |ds|
        ensures 0.0 <= ds[j]
      {
        assert ds[j] == Change(closes, j + (|closes| - period));
      }
    }
  }

  /** `rsi` looks at nothing older than its last `period + 1` closes. */
  lemma RsiUsesLastWindow(older: seq<real>, closes: seq<real>, period: nat)
    requires 1 <= period && period + 1 <= |closes|
    ensures Rsi(older + closes, period) == Rsi(closes, period)
  {
    TailOfAppend(older, closes, period + 1);
    RsiOfSameWindow(older + closes, closes, period);
  }

  /** Two histories that end in the same `period + 1` closes have the same `rsi`. */
  lemma RsiOfSameWindow(a: seq<real>, b: seq<real>, period: nat)
    requires 1 <= period && period + 1 <= |a| && period + 1 <= |b|
    requires Tail(a, period + 1) == Tail(b, period + 1)
    ensures Rsi(a, period) == Rsi(b, period)
  {
  }

  /** The loop of `rsi` in zora_bot.py, with its negative indices
      `closes[-(period + 1) + i] - closes[-(period + 2) + i]`, computes `Rsi`. */
  method RsiLoop(closes: seq<real>, period: nat) returns (r: Option<real>)
    requires period >= 1
    ensures r == Rsi(closes, period)
  {
    if |closes| < period + 1 {
      return None;
    }
    ghost var w := Tail(closes, period + 1);
    ghost var ds := Deltas(w);
    var gains: seq<real> := [];
    var losses: seq<real> := [];
    for i := 1 to period + 1
      invariant gains == Gains(ds)[..i - 1]
      invariant losses == Losses(ds)[..i - 1]
    {
      var change := At(closes, -(period + 1) + i) - At(closes, -(period + 2) + i);
      assert change == ds[i - 1];
      gains := gains + [Gain(change)];
      losses := losses + [Loss(change)];
    }
    assert gains == Gains(ds) && losses == Losses(ds);
    NoLossIff(ds);
    DivideSign(Sum(gains), period as real);
    DivideSign(Sum(losses), period as real);
    var avgGain := Sum(gains) / (period as real);
    var avgLoss := Sum(losses) / (period as real);
    return Some(RsiFromAverages(avgGain, avgLoss));
  }

  // ------------------------------------------------- standard deviation

  /** `pstdev` is a population standard deviation as far as the scanner can
      tell: never negative, and zero exactly on a window whose values are all
      equal. The square root inside it is left abstract. */
  ghost predicate IsPstdev(pstdev: seq<real> -> real)
  {
    forall w :: 0.0 <= pstdev(w) && (pstdev(w) == 0.0 <==> Flat(w))
  }

  /** The standard deviation that `bollinger` and `zscore` in zora_bot.py
      take of a window: `pstdev` for two or more points, `0.0` otherwise. */
  function Std(w: seq<real>, pstdev: seq<real> -> real): (std: real)
    requires IsPstdev(pstdev)
    ensures 0.0 <= std
    ensures std == 0.0 <==> Flat(w)
    ensures 2 <= |w| ==> std == pstdev(w)
  {
    if |w| >= 2 then pstdev(w) else 0.0
  }

  // ---------------------------------------------------------- Bollinger

  /** A multiple of a deviation is zero only when one factor is, and a
      non-negative multiple is non-negative. */
  lemma ScaleByDeviation(mult: real, std: real)
    requires 0.0 <= std
    ensures mult * std == 0.0 <==> mult == 0.0 || std == 0.0
    ensures 0.0 <= mult ==> 0.0 <= mult * std
  {
    if mult != 0.0 && std != 0.0 {
      assert mult == (mult * std) / std;
    }
  }

  /** Lower band, middle band (the SMA) and upper band. */
  datatype Bands = Bands(lower: real, mid: real, upper: real)

  /** The bands `spread` either side of `mid`. */
  function Widen(mid: real, spread: real): Bands
  {
    Bands(mid - spread, mid, mid + spread)
  }

  /** `bollinger`: the SMA plus and minus `mult` standard deviations of the window. */
  function Bollinger(closes: seq<real>, period: nat, mult: real, pstdev: seq<real> -> real): (r: Option<Bands>)
    requires period >= 1 && IsPstdev(pstdev)
    ensures r.None? <==> |closes| < period
    ensures r.Some? ==> Sma(closes, period) == Some(r.value.mid)
    ensures r.Some? ==> r.value.upper - r.value.mid == r.value.mid - r.value.lower
    ensures r.Some? && 0.0 <= mult ==> r.value.lower <= r.value.mid <= r.value.upper
    ensures r.Some? ==>
      (r.value.lower == r.value.upper <==> mult == 0.0 || Flat(closes[|closes| - period..]))
  {
    if |closes| < period then None
    else
      var mid := Sma(closes, period).value;
      var std := Std(closes[|closes| - period..], pstdev);
      ScaleByDeviation(mult, std);
      Some(Widen(mid, mult * std))
  }

  // ------------------------------------------------------------ z-score

  /** `zscore`: how many standard deviations the last close lies from the
      window's mean, or `0.0` when the window is flat. */
  function Zscore(closes: seq<real>, period: nat, pstdev: seq<real> -> real): (r: Option<real>)
    requires period >= 1 && IsPstdev(pstdev)
    ensures r.None? <==> |closes| < period
    ensures r.Some? && Flat(closes[|closes| - period..]) ==> r.value == 0.0
    ensures r.Some? ==> (r.value < 0.0 <==> closes[|closes| - 1] < Mean(closes[|closes| - period..]))
    ensures r.Some? ==> (0.0 < r.value <==> Mean(closes[|closes| - period..]) < closes[|closes| - 1])
  {
    if |closes| < period then None
    else
      var w := Tail(closes, period);
      var m := Mean(w);
      var std := Std(w, pstdev);
      assert w[|w| - 1] == closes[|closes| - 1];
      if std == 0.0 then
        MeanOfFlat(w);
        Some(0.0)
      else
        var z := (closes[|closes| - 1] - m) / std;
        assert z * std == closes[|closes| - 1] - m;
        Some(z)
  }

  /** The bands lie `mult` window deviations either side of the window's mean. */
  lemma BandsAroundMean(closes: seq<real>, period: nat, mult: real, pstdev: seq<real> -> real)
    requires 1 <= period <= |closes| && IsPstdev(pstdev)
    ensures var w := closes[|closes| - period..];
            var spread := mult * Std(w, pstdev);
            Bollinger(closes, period, mult, pstdev) == Some(Bands(Mean(w) - spread, Mean(w), Mean(w) + spread))
  {
    var w := closes[|closes| - period..];
    assert Sma(closes, period) == Some(Mean(w));
  }

  /** The z-score scaled back by the window's deviation is the last close's
      distance from the window's mean. */
  lemma ZscoreScaled(closes: seq<real>, period: nat, pstdev: seq<real> -> real)
    requires 1 <= period <= |closes| && IsPstdev(pstdev)
    ensures var w := closes[|closes| - period..];
            Zscore(closes, period, pstdev).value * Std(w, pstdev) == closes[|closes| - 1] - Mean(w)
  {
    var w := closes[|closes| - period..];
    if Std(w, pstdev) == 0.0 {
      MeanOfFlat(w);
      assert w[|w| - 1] == closes[|closes| - 1];
    }
  }

  // ---------------------------------------------------------------- ATR

  function Abs(x: real): real
  {
    if x < 0.0 then -x else x
  }

  /** The true range of a candle: the largest of its own range and its
      distances from the previous close. */
  function TrueRange(high: real, low: real, prevClose: real): (tr: real)
    ensures high - low <= tr && Abs(high - prevClose) <= tr && Abs(low - prevClose) <= tr
    ensures tr == high - low || tr == Abs(high - prevClose) || tr == Abs(low - prevClose)
    ensures 0.0 <= tr
  {
    var a, b, c := high - low, Abs(high - prevClose), Abs(low - prevClose);
    if a >= b && a >= c then a else if b >= c then b else c
  }

  /** The true ranges of the last `period` candles, each against the close before it. */
  function TrueRanges(highs: seq<real>, lows: seq<real>, closes: seq<real>, period: nat): (trs: seq<real>)
    requires |highs| == |lows| == |closes| && period + 1 <= |highs|
    ensures |trs| == period
    ensures forall j :: 0 <= j < period ==>
      trs[j] == TrueRange(highs[|highs| - period + j], lows[|highs| - period + j], closes[|highs| - period + j - 1])
  {
    var n := |highs|;
    seq(period, j requires 0 <= j < period =>
      TrueRange(highs[n - period + j], lows[n - period + j], closes[n - period + j - 1]))
  }

  /** `high - low` of the last `period` candles. */
  function Spreads(highs: seq<real>, lows: seq<real>, period: nat): (sp: seq<real>)
    requires |highs| == |lows| && period <= |highs|
    ensures |sp| == period
    ensures forall j :: 0 <= j < period ==> sp[j] == highs[|highs| - period + j] - lows[|highs| - period + j]
  {
    var n := |highs|;
    seq(period, j requires 0 <= j < period => highs[n - period + j] - lows[n - period + j])
  }

  /** `atr`: the simple average of the last `period` true ranges. */
  function Atr(highs: seq<real>, lows: seq<real>, closes: seq<real>, period: nat): (r: Option<real>)
    requires period >= 1 && |highs| == |lows| == |closes|
    ensures r.None? <==> |highs| < period + 1
    ensures r.Some? ==> 0.0 <= r.value
    ensures r.Some? ==> Mean(Spreads(highs, lows, period)) <= r.value
  {
    if |highs| < period + 1 then None
    else
      var trs := TrueRanges(highs, lows, closes, period);
      SumAtLeast(trs, 0.0);
      SumMonotone(Spreads(highs, lows, period), trs);
      DivideSign(Sum(trs), period as real);
      DivideMonotone(Sum(Spreads(highs, lows, period)), Sum(trs), period as real);
      Some(Sum(trs) / (period as real))
  }

  /** `atr` looks at nothing older than its last `period + 1` candles. */
  lemma AtrUsesLastWindow(olderHighs: seq<real>, olderLows: seq<real>, olderCloses: seq<real>,
                          highs: seq<real>, lows: seq<real>, closes: seq<real>, period: nat)
    requires |olderHighs| == |olderLows| == |olderCloses|
    requires |highs| == |lows| == |closes| && 1 <= period && period + 1 <= |highs|
    ensures Atr(olderHighs + highs, olderLows + lows, olderCloses + closes, period)
         == Atr(highs, lows, closes, period)
  {
    var o := |olderHighs|;
    var n := |highs|;
    var longer := TrueRanges(olderHighs + highs, olderLows + lows, olderCloses + closes, period);
    var shorter := TrueRanges(highs, lows, closes, period);
    forall j | 0 <= j < period
      ensures longer[j] == shorter[j]
    {
      assert (olderHighs + highs)[o + n - period + j] == highs[n - period + j];
      assert (olderLows + lows)[o + n - period + j] == lows[n - period + j];
      assert (olderCloses + closes)[o + n - period + j - 1] == closes[n - period + j - 1];
    }
    assert longer == shorter;
  }

  /** The loop of `atr` in zora_bot.py over `range(-period, 0)`, reading `highs[i]`,
      `lows[i]` and `closes[i - 1]`, computes `Atr`. */
  method AtrLoop(highs: seq<real>, lows: seq<real>, closes: seq<real>, period: nat) returns (r: Option<real>)
    requires period >= 1 && |highs| == |lows| == |closes|
    ensures r == Atr(highs, lows, closes, period)
  {
    if |highs| < period + 1 {
      return None;
    }
    ghost var expected := TrueRanges(highs, lows, closes, period);
    var trs: seq<real> := [];
    for i: int := -(period as int) to 0
      invariant trs == expected[..i + period]
    {
      var high := At(highs, i);
      var low := At(lows, i);
      var prevClose := At(closes, i - 1);
      trs := trs + [TrueRange(high, low, prevClose)];
    }
    assert trs == expected;
    return Some(Sum(trs) / (|trs| as real));
  }
}

=== FILE: scan.dfy ===
/** The scanner's state machine: one step per symbol (fetch, indicators,
    LONG block, SHORT block, each guarded by the dedup map), the pass that
    folds the step over the symbol list and bumps the cycle counter, and a
    run of passes. Network I/O becomes a `Fetch` value handed in per symbol;
    printing and logging become the emitted `Event`s. */
module Scan {
  import opened Wrappers
  import opened Series
  import opened Indicators
  import opened Signals

  /** One kline as the scanner reads it: high, low, close and close time in ms. */
  datatype Candle = Candle(high: real, low: real, close: real, closeTime: int)

  /** The outcome of the kline request for one symbol: the candles, oldest
      first, or a failure (network error, HTTP error, unparsable payload). */
  datatype Fetch = Fetched(candles: seq<Candle>) | FetchFailed

  datatype Stats = Stats(longSignals: nat, shortSignals: nat, cycles: nat)

  /** The process-wide mutable state: the dedup map from `symbol + "_LONG"` /
      `symbol + "_SHORT"` to the close time of the last alerted candle, and
      the counters. */
  datatype State = State(lastAlert: map<string, int>, stats: Stats)

  /** An alert as printed and logged. */
  datatype Event = Event(symbol: string, direction: Direction, price: real, target: real, percent: real, closeTime: int)

  /** Why a symbol produced nothing in a step: the swallowed exception or the
      missing indicator. */
  datatype Skip = FetchError | NoCandles | NotEnoughData | DivisionByZero

  datatype StepResult = StepResult(state: State, events: seq<Event>, skipped: Option<Skip>)

  /** The outcome of one direction's block: it raised, or it left a state and
      at most one alert. */
  datatype Verdict = Fault | Done(state: State, events: seq<Event>)

  /** The state and the alerts after a sequence of steps. */
  datatype Report = Report(state: State, events: seq<Event>)

  const Init: State := State(map[], Stats(0, 0, 0))

  function Highs(cs: seq<Candle>): (r: seq<real>)
    ensures |r| == |cs| && forall i :: 0 <= i < |cs| ==> r[i] == cs[i].high
  {
    seq(|cs|, i requires 0 <= i < |cs| => cs[i].high)
  }

  function Lows(cs: seq<Candle>): (r: seq<real>)
    ensures |r| == |cs| && forall i :: 0 <= i < |cs| ==> r[i] == cs[i].low
  {
    seq(|cs|, i requires 0 <= i < |cs| => cs[i].low)
  }

  function Closes(cs: seq<Candle>): (r: seq<real>)
    ensures |r| == |cs| && forall i :: 0 <= i < |cs| ==> r[i] == cs[i].close
  {
    seq(|cs|, i requires 0 <= i < |cs| => cs[i].close)
  }

  function Last(cs: seq<Candle>): Candle
    requires |cs| > 0
  {
    cs[|cs| - 1]
  }

  // ----------------------------------------------------------- dedup key

  function Suffix(d: Direction): string
  {
    match d
    case Long => "_LONG"
    case Short => "_SHORT"
  }

  /** The dedup key: the symbol with `_LONG` or `_SHORT` appended. */
  function Key(symbol: string, d: Direction): (k: string)
    ensures |symbol| < |k| && k[..|symbol|] == symbol
  {
    symbol + Suffix(d)
  }

  /** Distinct (symbol, direction) pairs never share a dedup key. */
  lemma KeyInjective(s1: string, d1: Direction, s2: string, d2: Direction)
    ensures Key(s1, d1) == Key(s2, d2) <==> s1 == s2 && d1 == d2
  {
    if Key(s1, d1) == Key(s2, d2) {
      var k := Key(s1, d1);
      assert k[|k| - 1] == (if d1 == Long then 'G' else 'T');
      assert k[|k| - 1] == (if d2 == Long then 'G' else 'T');
      assert d1 == d2;
      assert s1 == k[..|s1|] && s2 == k[..|s2|];
    }
  }

  /** The dedup map already holds this candle's close time for the key. */
  predicate Alerted(st: State, symbol: string, d: Direction, closeTime: int)
  {
    Key(symbol, d) in st.lastAlert && st.lastAlert[Key(symbol, d)] == closeTime
  }

  // ---------------------------------------------------------- counters

  /** The number of alerts in direction `d`. */
  function Count(evs: seq<Event>, d: Direction): nat
  {
    if |evs| == 0 then 0 else (if evs[0].direction == d then 1 else 0) + Count(evs[1..], d)
  }

  lemma {:induction false} CountAppend(a: seq<Event>, b: seq<Event>, d: Direction)
    ensures Count(a + b, d) == Count(a, d) + Count(b, d)
  {
    if |a| > 0 {
      assert (a + b)[1..] == a[1..] + b;
      CountAppend(a[1..], b, d);
    } else {
      assert a + b == b;
    }
  }

  /** At most one alert counts one or nothing. */
  lemma CountOfOne(evs: seq<Event>, d: Direction)
    requires |evs| <= 1
    ensures Count(evs, d) == if |evs| == 1 && evs[0].direction == d then 1 else 0
  {
    if |evs| == 1 {
      assert evs[1..] == [];
    }
  }

  /** The counters after the alerts `evs`, with the cycle count kept. */
  function Tally(s: Stats, evs: seq<Event>): Stats
  {
    Stats(s.longSignals + Count(evs, Long), s.shortSignals + Count(evs, Short), s.cycles)
  }

  /** Tallying two lists of alerts in turn is tallying their concatenation. */
  lemma TallyAppend(s: Stats, a: seq<Event>, b: seq<Event>)
    ensures Tally(Tally(s, a), b) == Tally(s, a + b)
  {
    CountAppend(a, b, Long);
    CountAppend(a, b, Short);
  }

  /** Store the alerted close time under `key` and bump the direction's counter. */
  function Record(st: State, key: string, d: Direction, closeTime: int): State
  {
    var s := st.stats;
    var stats := match d
      case Long => Stats(s.longSignals + 1, s.shortSignals, s.cycles)
      case Short => Stats(s.longSignals, s.shortSignals + 1, s.cycles);
    State(st.lastAlert[key := closeTime], stats)
  }

  // -------------------------------------------------------- indicators

  /** The four indicators of a candle list, or `None` when any of them is
      missing; with 20-candle bands and 14-period RSI and ATR that is
      exactly the lists shorter than 20. */
  function Indicate(cs: seq<Candle>, pstdev: seq<real> -> real): (r: Option<Snapshot>)
    requires IsPstdev(pstdev)
    ensures r.Some? <==> BandPeriod <= |cs|
    ensures r.Some? ==> 0.0 <= r.value.rsi <= 100.0 && 0.0 <= r.value.atr
    ensures r.Some? ==> r.value.bands.lower <= r.value.bands.mid <= r.value.bands.upper
  {
    var closes := Closes(cs);
    var bands := Bollinger(closes, BandPeriod, BandMult, pstdev);
    var rsi := Rsi(closes, RsiPeriod);
    var z := Zscore(closes, BandPeriod, pstdev);
    var atr := Atr(Highs(cs), Lows(cs), closes, AtrPeriod);
    if bands.None? || rsi.None? || z.None? || atr.None? then None
    else Some(Snapshot(bands.value, rsi.value, z.value, atr.value))
  }

  /** What one step reads off a symbol's candles: the last close and its
      close time, the indicator snapshot, and the swing high and low of the
      last fifty candles. */
  datatype Reading = Reading(price: real, closeTime: int, snap: Snapshot, swingHigh: real, swingLow: real)

  /** The reading of a candle list, or `None` when an indicator is missing.
      The swing extremes are taken here rather than inside the blocks: they
      are pure and cannot fail on a non-empty list. */
  function Read(cs: seq<Candle>, pstdev: seq<real> -> real): (r: Option<Reading>)
    requires IsPstdev(pstdev)
    ensures r.Some? <==> BandPeriod <= |cs|
    ensures r.Some? ==> r.value.price == Last(cs).close && r.value.closeTime == Last(cs).closeTime
    ensures r.Some? ==> Indicate(cs, pstdev) == Some(r.value.snap)
    ensures r.Some? ==> r.value.swingHigh == SwingHigh(Highs(cs)) && r.value.swingLow == SwingLow(Lows(cs))
  {
    match Indicate(cs, pstdev)
    case None => None
    case Some(snap) =>
      Some(Reading(Last(cs).close, Last(cs).closeTime, snap, SwingHigh(Highs(cs)), SwingLow(Lows(cs))))
  }

  /** The swing extreme a target is capped by: the swing high for LONG, the
      swing low for SHORT. */
  function Swing(d: Direction, rd: Reading): real
  {
    match d
    case Long => rd.swingHigh
    case Short => rd.swingLow
  }

  /** Whether a snapshot calls for an alert in direction `d` at `price`,
      with `swing` as the swing extreme: the triad holds, the price is
      non-zero and the projected move reaches the minimum. */
  predicate Calls(d: Direction, price: real, snap: Snapshot, swing: real)
  {
    Triggered(d, price, snap) && price != 0.0 &&
    MinPct(d) <= Move(d, price, Target(d, price, snap.atr, swing))
  }

  /** What an alert printed from reading `rd` promises: the reading's price
      and candle, the target that is the lower (LONG) or higher (SHORT) of
      the swing extreme and the ATR projection, and a move to that target
      that clears the minimum. */
  predicate Sound(e: Event, rd: Reading)
  {
    e.price == rd.price && e.closeTime == rd.closeTime && e.price != 0.0 &&
    e.target == Target(e.direction, rd.price, rd.snap.atr, Swing(e.direction, rd)) &&
    e.percent == Move(e.direction, e.price, e.target) && MinPct(e.direction) <= e.percent
  }

  /** A sound alert at a positive price has its target strictly on the
      trade's side, at least the minimum move away, and within both the swing
      extreme and the 1.5 ATR projection. */
  lemma SoundAlertWithinBounds(e: Event, rd: Reading)
    requires Sound(e, rd) && 0.0 < e.price
    ensures e.direction == Long ==>
      e.price < e.target && e.price + e.price * MinPct(Long) / 100.0 <= e.target &&
      e.target <= rd.swingHigh && e.target <= e.price + AtrTargetMult * rd.snap.atr
    ensures e.direction == Short ==>
      e.target < e.price && e.target <= e.price - e.price * MinPct(Short) / 100.0 &&
      rd.swingLow <= e.target && e.price - AtrTargetMult * rd.snap.atr <= e.target
  {
    MoveAtLeastIff(e.direction, e.price, e.target, MinPct(e.direction));
    ThresholdForcesDirection(e.direction, e.price, e.target, MinPct(e.direction));
  }

  /** Whether the candles alone call for an alert in direction `d`, whatever
      the dedup map says. */
  predicate Fires(d: Direction, cs: seq<Candle>, pstdev: seq<real> -> real)
    requires IsPstdev(pstdev)
  {
    Read(cs, pstdev).Some? &&
    var rd := Read(cs, pstdev).value;
    Calls(d, rd.price, rd.snap, Swing(d, rd))
  }

  /** A snapshot never calls for both directions at once. */
  lemma CallsExclusive(price: real, snap: Snapshot, high: real, low: real)
    ensures !(Calls(Long, price, snap, high) && Calls(Short, price, snap, low))
  {
    NeverBothDirections(price, snap);
  }

  /** For a positive price, a snapshot calls for an alert exactly when the
      triad holds and the target clears the price by at least the minimum
      move: upwards for LONG, downwards for SHORT. */
  lemma CallsIff(d: Direction, price: real, snap: Snapshot, swing: real)
    requires 0.0 < price
    ensures var target := Target(d, price, snap.atr, swing);
            var clearance := price * MinPct(d) / 100.0;
            Calls(d, price, snap, swing) <==>
              Triggered(d, price, snap) &&
              (d == Long ==> price + clearance <= target) && (d == Short ==> target <= price - clearance)
  {
    MoveAtLeastIff(d, price, Target(d, price, snap.atr, swing), MinPct(d));
  }

  // ------------------------------------------------------ one direction

  /** One direction's block of the step: check the triad, skip a candle
      already alerted for this key, compute target and move (which raises
      on a zero price), and record the alert when the move is large enough. */
  function Consider(st: State, symbol: string, d: Direction, rd: Reading): (r: Verdict)
    ensures r.Fault? <==> Triggered(d, rd.price, rd.snap) && !Alerted(st, symbol, d, rd.closeTime) && rd.price == 0.0
    ensures r.Done? ==> |r.events| <= 1
    ensures r.Done? && r.events == [] ==> r.state == st
    ensures r.Done? && r.events != [] ==>
      r.events[0].symbol == symbol && r.events[0].direction == d && r.events[0].closeTime == rd.closeTime &&
      Sound(r.events[0], rd) && r.state == Record(st, Key(symbol, d), d, rd.closeTime)
    ensures r.Done? ==>
      (|r.events| == 1 <==> Calls(d, rd.price, rd.snap, Swing(d, rd)) && !Alerted(st, symbol, d, rd.closeTime))
  {
    var key := Key(symbol, d);
    if !Triggered(d, rd.price, rd.snap) then Done(st, [])
    else if key in st.lastAlert && st.lastAlert[key] == rd.closeTime then Done(st, [])
    else if rd.price == 0.0 then Fault
    else
      var target := Target(d, rd.price, rd.snap.atr, Swing(d, rd));
      var pct := Move(d, rd.price, target);
      if pct >= MinPct(d) then
        Done(Record(st, key, d, rd.closeTime), [Event(symbol, d, rd.price, target, pct, rd.closeTime)])
      else Done(st, [])
  }

  // --------------------------------------------------------- the step

  /** The dedup maps agree on every key except the symbol's two keys. */
  ghost predicate AgreeElsewhere(m1: map<string, int>, m2: map<string, int>, symbol: string)
  {
    forall k :: k != Key(symbol, Long) && k != Key(symbol, Short) ==>
      (k in m1 <==> k in m2) && (k in m1 ==> m1[k] == m2[k])
  }

  /** The LONG block followed by the SHORT block on one symbol's reading.
      A zero price raises in the first block that gets as far as the
      division; a SHORT fault would keep the LONG block's effects, but no
      LONG alert can precede it. */
  function Evaluate(st: State, symbol: string, rd: Reading): (r: StepResult)
    ensures r.skipped.Some? ==> r.skipped == Some(DivisionByZero) && rd.price == 0.0
    ensures r.skipped.Some? ==> r.state == st && r.events == []
    ensures r.events == [] ==> r.state == st
  {
    match Consider(st, symbol, Long, rd)
    case Fault => StepResult(st, [], Some(DivisionByZero))
    case Done(st1, ev1) =>
      match Consider(st1, symbol, Short, rd)
      case Fault => StepResult(st1, ev1, Some(DivisionByZero))
      case Done(st2, ev2) => StepResult(st2, ev1 + ev2, None)
  }

  /** The counters grow by the alerts the two blocks emit. */
  lemma EvaluateTally(st: State, symbol: string, rd: Reading)
    ensures var r := Evaluate(st, symbol, rd);
            r.state.stats == Tally(st.stats, r.events)
  {
    match Consider(st, symbol, Long, rd)
    case Fault =>
    case Done(st1, ev1) =>
      CountOfOne(ev1, Long);
      CountOfOne(ev1, Short);
      match Consider(st1, symbol, Short, rd)
      case Fault =>
      case Done(st2, ev2) =>
        CountAppend(ev1, ev2, Long);
        CountAppend(ev1, ev2, Short);
        CountOfOne(ev2, Long);
        CountOfOne(ev2, Short);
  }

  /** The two blocks touch only the symbol's own dedup keys, never drop a
      key, and store nothing but the reading's close time. */
  lemma EvaluateStores(st: State, symbol: string, rd: Reading)
    ensures var r := Evaluate(st, symbol, rd);
            AgreeElsewhere(st.lastAlert, r.state.lastAlert, symbol)
    ensures var r := Evaluate(st, symbol, rd);
            forall k :: k in st.lastAlert ==> k in r.state.lastAlert
    ensures var r := Evaluate(st, symbol, rd);
            forall k :: k in r.state.lastAlert ==>
              (k in st.lastAlert && r.state.lastAlert[k] == st.lastAlert[k]) || r.state.lastAlert[k] == rd.closeTime
  {
    match Consider(st, symbol, Long, rd)
    case Fault =>
    case Done(st1, ev1) =>
      assert forall k :: k in st1.lastAlert ==>
        (k in st.lastAlert && st1.lastAlert[k] == st.lastAlert[k]) || st1.lastAlert[k] == rd.closeTime;
  }

  /** At most one alert, since no reading calls for both directions; it is
      for this symbol and this candle, and the dedup map remembers it when
      the step ends. */
  lemma EvaluateRecords(st: State, symbol: string, rd: Reading)
    ensures var r := Evaluate(st, symbol, rd);
            |r.events| <= 1
    ensures var r := Evaluate(st, symbol, rd);
            forall i :: 0 <= i < |r.events| ==>
              r.events[i].symbol == symbol && r.events[i].closeTime == rd.closeTime && Sound(r.events[i], rd) &&
              Alerted(r.state, symbol, r.events[i].direction, r.events[i].closeTime)
  {
    KeyInjective(symbol, Long, symbol, Short);
    NeverBothDirections(rd.price, rd.snap);
  }

  /** An alert in direction `d` is emitted exactly when the reading calls for
      one and the dedup map does not already hold this candle for the key. */
  lemma EvaluateAlertIff(st: State, symbol: string, rd: Reading, d: Direction)
    ensures Count(Evaluate(st, symbol, rd).events, d) ==
      if Calls(d, rd.price, rd.snap, Swing(d, rd)) && !Alerted(st, symbol, d, rd.closeTime) then 1 else 0
  {
    KeyInjective(symbol, Long, symbol, Short);
    match Consider(st, symbol, Long, rd)
    case Fault =>
    case Done(st1, ev1) =>
      CountOfOne(ev1, d);
      match Consider(st1, symbol, Short, rd)
      case Fault =>
      case Done(st2, ev2) =>
        CountAppend(ev1, ev2, d);
        CountOfOne(ev2, d);
        assert Alerted(st1, symbol, Short, rd.closeTime) == Alerted(st, symbol, Short, rd.closeTime);
  }

  /** What a step makes of a fetch before the two blocks run: the reason
      it stops, or the reading the blocks work on. */
  datatype Observation = Skipped(why: Skip) | Ready(reading: Reading)

  /** The part of the step up to the indicator check: a failed request, an
      empty candle list (the last close cannot be read) and a missing
      indicator each end the step. */
  function Observe(fetch: Fetch, pstdev: seq<real> -> real): (o: Observation)
    requires IsPstdev(pstdev)
    ensures o == Skipped(FetchError) <==> fetch.FetchFailed?
    ensures o == Skipped(NoCandles) <==> fetch.Fetched? && |fetch.candles| == 0
    ensures o == Skipped(NotEnoughData) <==> fetch.Fetched? && 0 < |fetch.candles| < BandPeriod
    ensures o.Ready? <==> fetch.Fetched? && BandPeriod <= |fetch.candles|
    ensures o.Ready? ==> Read(fetch.candles, pstdev) == Some(o.reading)
  {
    match fetch
    case FetchFailed => Skipped(FetchError)
    case Fetched(cs) =>
      if |cs| == 0 then Skipped(NoCandles)
      else match Read(cs, pstdev)
        case None => Skipped(NotEnoughData)
        case Some(rd) => Ready(rd)
  }

  /** The close time of the candle an observation's blocks would alert on. */
  function Stamp(o: Observation): Option<int>
  {
    if o.Ready? then Some(o.reading.closeTime) else None
  }

  /** The step on an observation. */
  function StepOn(st: State, symbol: string, o: Observation): (r: StepResult)
    ensures r.skipped.Some? ==> r.state == st && r.events == []
    ensures o.Skipped? ==> r.skipped == Some(o.why)
    ensures o.Ready? && r.skipped.Some? ==> r.skipped == Some(DivisionByZero) && o.reading.price == 0.0
    ensures r.events == [] ==> r.state == st
  {
    match o
    case Skipped(why) => StepResult(st, [], Some(why))
    case Ready(rd) => Evaluate(st, symbol, rd)
  }

  /** One symbol's iteration of the scan loop. A failed request, an empty
      candle list, a missing indicator and a division by a zero price all
      end the iteration without a trace; LONG is evaluated before SHORT. */
  function Step(st: State, symbol: string, fetch: Fetch, pstdev: seq<real> -> real): (r: StepResult)
    requires IsPstdev(pstdev)
    ensures r.skipped.Some? ==> r.state == st && r.events == []
    ensures r.skipped == Some(FetchError) <==> fetch.FetchFailed?
    ensures r.skipped == Some(NoCandles) <==> fetch.Fetched? && |fetch.candles| == 0
    ensures r.skipped == Some(NotEnoughData) <==> fetch.Fetched? && 0 < |fetch.candles| < BandPeriod
    ensures r.skipped == Some(DivisionByZero) ==> fetch.Fetched? && Last(fetch.candles).close == 0.0
    ensures r.events == [] ==> r.state == st
  {
    StepOn(st, symbol, Observe(fetch, pstdev))
  }

  /** A step's alerts are exactly what its counters grow by; the cycle
      counter is left alone. */
  lemma StepTally(st: State, symbol: string, o: Observation)
    ensures var r := StepOn(st, symbol, o);
            r.state.stats == Tally(st.stats, r.events)
  {
    if o.Ready? {
      EvaluateTally(st, symbol, o.reading);
    }
  }

  /** A step touches only the symbol's own two dedup keys, never drops a
      key, and stores nothing but the close time of the candle it saw. */
  lemma StepStores(st: State, symbol: string, o: Observation)
    ensures var r := StepOn(st, symbol, o);
            AgreeElsewhere(st.lastAlert, r.state.lastAlert, symbol)
    ensures var r := StepOn(st, symbol, o);
            forall k :: k in st.lastAlert ==> k in r.state.lastAlert
    ensures var r := StepOn(st, symbol, o);
            forall k :: k in r.state.lastAlert ==>
              (k in st.lastAlert && r.state.lastAlert[k] == st.lastAlert[k]) || Stamp(o) == Some(r.state.lastAlert[k])
  {
    if o.Ready? {
      EvaluateStores(st, symbol, o.reading);
    }
  }

  /** A step emits at most one alert, since the two triads exclude each
      other; the alert is for this symbol and the candle it saw, and the
      dedup map remembers it. */
  lemma StepRecords(st: State, symbol: string, o: Observation)
    ensures var r := StepOn(st, symbol, o);
            |r.events| <= 1
    ensures var r := StepOn(st, symbol, o);
            forall i :: 0 <= i < |r.events| ==>
              r.events[i].symbol == symbol && Stamp(o) == Some(r.events[i].closeTime) &&
              o.Ready? && Sound(r.events[i], o.reading) &&
              Alerted(r.state, symbol, r.events[i].direction, r.events[i].closeTime)
  {
    if o.Ready? {
      EvaluateRecords(st, symbol, o.reading);
    }
  }

  /** The stateless part of an alert decision on an observation. */
  predicate ObservedCall(d: Direction, o: Observation)
  {
    o.Ready? && Calls(d, o.reading.price, o.reading.snap, Swing(d, o.reading))
  }

  /** An observation's step emits an alert in direction `d` exactly when the
      reading calls for one and the dedup map does not already hold its close
      time for the key. */
  lemma StepOnAlertIff(st: State, symbol: string, o: Observation, d: Direction)
    ensures Count(StepOn(st, symbol, o).events, d) ==
      if ObservedCall(d, o) && !Alerted(st, symbol, d, o.reading.closeTime) then 1 else 0
  {
    if o.Ready? {
      EvaluateAlertIff(st, symbol, o.reading, d);
    }
  }

  /** A step on a symbol's candles emits an alert in direction `d` exactly
      when the candles fire in that direction and the dedup map does not
      already hold their last close time for the key; never more than one. */
  lemma StepAlertIff(st: State, symbol: string, cs: seq<Candle>, pstdev: seq<real> -> real, d: Direction)
    requires IsPstdev(pstdev)
    ensures Count(Step(st, symbol, Fetched(cs), pstdev).events, d) ==
      if Fires(d, cs, pstdev) && !Alerted(st, symbol, d, Last(cs).closeTime) then 1 else 0
  {
    StepOnAlertIff(st, symbol, Observe(Fetched(cs), pstdev), d);
  }

  /** A counted alert is in the list. */
  lemma {:induction false} CountPositive(evs: seq<Event>, d: Direction)
    requires Count(evs, d) > 0
    ensures exists i :: 0 <= i < |evs| && evs[i].direction == d
  {
    if evs[0].direction != d {
      CountPositive(evs[1..], d);
      var i :| 0 <= i < |evs[1..]| && evs[1..][i].direction == d;
      assert evs[i + 1].direction == d;
    }
  }

  /** A list with no alert in either direction is empty. */
  lemma CountNone(evs: seq<Event>)
    requires Count(evs, Long) == 0 && Count(evs, Short) == 0
    ensures evs == []
  {
  }

  /** Repeating a step on the same observation says nothing new: the second
      step emits no alert and leaves the state as the first one left it. */
  lemma RepeatOnIsSilent(st: State, symbol: string, o: Observation)
    ensures var s1 := StepOn(st, symbol, o).state;
            var r2 := StepOn(s1, symbol, o);
            r2.events == [] && r2.state == s1
  {
    var r1 := StepOn(st, symbol, o);
    if o.Ready? {
      var t := o.reading.closeTime;
      StepStores(st, symbol, o);
      StepRecords(st, symbol, o);
      forall d: Direction
        ensures Count(StepOn(r1.state, symbol, o).events, d) == 0
      {
        StepOnAlertIff(st, symbol, o, d);
        StepOnAlertIff(r1.state, symbol, o, d);
        if ObservedCall(d, o) {
          if Count(r1.events, d) > 0 {
            CountPositive(r1.events, d);
          } else {
            assert Key(symbol, d) in r1.state.lastAlert;
          }
        }
      }
      CountNone(StepOn(r1.state, symbol, o).events);
    }
  }

  /** Repeating a step on the same fetch says nothing new: the dedup map
      holds back every alert the first step made. */
  lemma RepeatIsSilent(st: State, symbol: string, fetch: Fetch, pstdev: seq<real> -> real)
    requires IsPstdev(pstdev)
    ensures var s1 := Step(st, symbol, fetch, pstdev).state;
            var r2 := Step(s1, symbol, fetch, pstdev);
            r2.events == [] && r2.state == s1
  {
    RepeatOnIsSilent(st, symbol, Observe(fetch, pstdev));
  }

  // ------------------------------------------------------------ a pass

  /** The inner loop of a pass: the step folded over the symbols in order,
      the alerts collected in the order they are printed. */
  function ScanSymbols(st: State, symbols: seq<string>, obs: seq<Observation>): (r: Report)
    requires |obs| == |symbols|
    ensures r.state.stats == Tally(st.stats, r.events)
    decreases |symbols|
  {
    if |symbols| == 0 then Report(st, [])
    else
      var s := StepOn(st, symbols[0], obs[0]);
      var rest := ScanSymbols(s.state, symbols[1..], obs[1..]);
      StepTally(st, symbols[0], obs[0]);
      TallyAppend(st.stats, s.events, rest.events);
      Report(rest.state, s.events + rest.events)
  }

  /** A scan only alerts for the symbols it was given. */
  lemma {:induction false} ScanStaysInList(st: State, symbols: seq<string>, obs: seq<Observation>)
    requires |obs| == |symbols|
    ensures forall e :: e in ScanSymbols(st, symbols, obs).events ==> e.symbol in symbols
    decreases |symbols|
  {
    if |symbols| > 0 {
      var s := StepOn(st, symbols[0], obs[0]);
      StepRecords(st, symbols[0], obs[0]);
      ScanStaysInList(s.state, symbols[1..], obs[1..]);
      var rest := ScanSymbols(s.state, symbols[1..], obs[1..]);
      var r := ScanSymbols(st, symbols, obs);
      assert r.events == s.events + rest.events;
      assert symbols == [symbols[0]] + symbols[1..];
      forall e | e in r.events
        ensures e.symbol in symbols
      {
        if e in s.events {
          var i :| 0 <= i < |s.events| && s.events[i] == e;
          assert e.symbol == symbols[0];
        } else {
          assert e in rest.events;
        }
      }
    }
  }

  /** The scan loop over any step function; `ScanSymbols` is this fold over `StepOn`. */
  function Fold(step: (State, string, Observation) -> StepResult, st: State, symbols: seq<string>, obs: seq<Observation>): Report
    requires |obs| == |symbols|
    decreases |symbols|
  {
    if |symbols| == 0 then Report(st, [])
    else
      var s := step(st, symbols[0], obs[0]);
      var rest := Fold(step, s.state, symbols[1..], obs[1..]);
      Report(rest.state, s.events + rest.events)
  }

  /** `ScanSymbols` is the fold of `StepOn`. */
  lemma {:induction false} ScanIsFold(st: State, symbols: seq<string>, obs: seq<Observation>)
    requires |obs| == |symbols|
    ensures ScanSymbols(st, symbols, obs) == Fold(StepOn, st, symbols, obs)
    decreases |symbols|
  {
    if |symbols| > 0 {
      var s := StepOn(st, symbols[0], obs[0]);
      ScanIsFold(s.state, symbols[1..], obs[1..]);
    }
  }

  /** Folding over two lists in turn is folding over their concatenation. */
  lemma {:induction false} FoldAppend(step: (State, string, Observation) -> StepResult, st: State,
                                      a: seq<string>, oa: seq<Observation>, b: seq<string>, ob: seq<Observation>)
    requires |oa| == |a| && |ob| == |b|
    ensures var r1 := Fold(step, st, a, oa);
            var r2 := Fold(step, r1.state, b, ob);
            Fold(step, st, a + b, oa + ob) == Report(r2.state, r1.events + r2.events)
    decreases |a|
  {
    if |a| == 0 {
      assert a + b == b && oa + ob == ob;
    } else {
      var s := step(st, a[0], oa[0]);
      assert (a + b)[0] == a[0] && (oa + ob)[0] == oa[0];
      assert (a + b)[1..] == a[1..] + b && (oa + ob)[1..] == oa[1..] + ob;
      FoldAppend(step, s.state, a[1..], oa[1..], b, ob);
      var r1 := Fold(step, s.state, a[1..], oa[1..]);
      var r2 := Fold(step, r1.state, b, ob);
      assert s.events + (r1.events + r2.events) == (s.events + r1.events) + r2.events;
    }
  }

  /** Scanning two symbol lists one after the other is scanning their
      concatenation. */
  lemma ScanAppend(st: State, a: seq<string>, oa: seq<Observation>, b: seq<string>, ob: seq<Observation>)
    requires |oa| == |a| && |ob| == |b|
    ensures var r1 := ScanSymbols(st, a, oa);
            var r2 := ScanSymbols(r1.state, b, ob);
            ScanSymbols(st, a + b, oa + ob) == Report(r2.state, r1.events + r2.events)
  {
    ScanIsFold(st, a, oa);
    ScanIsFold(ScanSymbols(st, a, oa).state, b, ob);
    ScanIsFold(st, a + b, oa + ob);
    FoldAppend(StepOn, st, a, oa, b, ob);
  }

  /** A symbol that was skipped leaves no trace: the scan is the same as one
      over the list without it. */
  lemma SkippedIsInvisible(st: State, symbols: seq<string>, obs: seq<Observation>, i: nat)
    requires |obs| == |symbols|
    requires i < |symbols| && obs[i].Skipped?
    ensures ScanSymbols(st, symbols, obs) == ScanSymbols(st, symbols[..i] + symbols[i + 1..], obs[..i] + obs[i + 1..])
  {
    var a, oa := symbols[..i], obs[..i];
    var b, ob := symbols[i + 1..], obs[i + 1..];
    assert symbols == a + ([symbols[i]] + b);
    assert obs == oa + ([obs[i]] + ob);
    ScanAppend(st, a, oa, [symbols[i]] + b, [obs[i]] + ob);
    ScanAppend(st, a, oa, b, ob);
    var r1 := ScanSymbols(st, a, oa);
    assert ([symbols[i]] + b)[1..] == b && ([obs[i]] + ob)[1..] == ob;
    assert StepOn(r1.state, symbols[i], obs[i]) == StepResult(r1.state, [], Some(obs[i].why));
    assert ScanSymbols(r1.state, [symbols[i]] + b, [obs[i]] + ob) == ScanSymbols(r1.state, b, ob);
  }

  /** `f` applied to each element of `xs`, in order. */
  function Map<A, B>(f: A --> B, xs: seq<A>): (ys: seq<B>)
    requires forall i :: 0 <= i < |xs| ==> f.requires(xs[i])
    ensures |ys| == |xs| && forall i :: 0 <= i < |xs| ==> ys[i] == f(xs[i])
  {
    seq(|xs|, i requires 0 <= i < |xs| => f(xs[i]))
  }

  /** Mapping a list with one element removed is removing its image. */
  lemma MapWithout<A, B>(f: A --> B, xs: seq<A>, i: nat)
    requires i < |xs| && forall k :: 0 <= k < |xs| ==> f.requires(xs[k])
    ensures Map(f, xs[..i] + xs[i + 1..]) == Map(f, xs)[..i] + Map(f, xs)[i + 1..]
  {
    var ys := Map(f, xs);
    var rest := xs[..i] + xs[i + 1..];
    var left := Map(f, rest);
    var right := ys[..i] + ys[i + 1..];
    assert |left| == |right|;
    forall j | 0 <= j < |left|
      ensures left[j] == right[j]
    {
      if j < i {
        assert rest[j] == xs[j] && right[j] == ys[j];
      } else {
        assert rest[j] == xs[j + 1] && right[j] == ys[j + 1];
      }
    }
  }

  /** The observations of a pass's fetches, one per symbol. */
  function Observed(fetches: seq<Fetch>, pstdev: seq<real> -> real): (obs: seq<Observation>)
    requires IsPstdev(pstdev)
    ensures |obs| == |fetches| && forall i :: 0 <= i < |fetches| ==> obs[i] == Observe(fetches[i], pstdev)
  {
    Map(fetch requires IsPstdev(pstdev) => Observe(fetch, pstdev), fetches)
  }

  /** Observing a list with one fetch removed is removing its observation. */
  lemma ObservedWithout(fetches: seq<Fetch>, pstdev: seq<real> -> real, i: nat)
    requires IsPstdev(pstdev) && i < |fetches|
    ensures var obs := Observed(fetches, pstdev);
            Observed(fetches[..i] + fetches[i + 1..], pstdev) == obs[..i] + obs[i + 1..]
  {
    MapWithout(fetch requires IsPstdev(pstdev) => Observe(fetch, pstdev), fetches, i);
  }

  /** The state with the cycle counter bumped, as at the top of each pass. */
  function Counted(st: State): State
  {
    State(st.lastAlert, Stats(st.stats.longSignals, st.stats.shortSignals, st.stats.cycles + 1))
  }

  /** One pass of the outer loop: bump the cycle counter, then scan every symbol. */
  function Pass(st: State, symbols: seq<string>, fetches: seq<Fetch>, pstdev: seq<real> -> real): (r: Report)
    requires IsPstdev(pstdev) && |fetches| == |symbols|
    ensures r.state.stats.cycles == st.stats.cycles + 1
    ensures r.state.stats.longSignals == st.stats.longSignals + Count(r.events, Long)
    ensures r.state.stats.shortSignals == st.stats.shortSignals + Count(r.events, Short)
    ensures forall e :: e in r.events ==> e.symbol in symbols
  {
    ScanStaysInList(Counted(st), symbols, Observed(fetches, pstdev));
    ScanSymbols(Counted(st), symbols, Observed(fetches, pstdev))
  }

  /** A symbol whose request failed leaves no trace in a pass: the pass is
      the same as one over the list without it. */
  lemma FailedFetchIsInvisible(st: State, symbols: seq<string>, fetches: seq<Fetch>, pstdev: seq<real> -> real, i: nat)
    requires IsPstdev(pstdev) && |fetches| == |symbols|
    requires i < |symbols| && fetches[i] == FetchFailed
    ensures Pass(st, symbols, fetches, pstdev) ==
      Pass(st, symbols[..i] + symbols[i + 1..], fetches[..i] + fetches[i + 1..], pstdev)
  {
    var obs := Observed(fetches, pstdev);
    ObservedWithout(fetches, pstdev, i);
    SkippedIsInvisible(Counted(st), symbols, obs, i);
  }

  /** Every pass is handed one fetch per symbol. */
  ghost predicate Shaped(symbols: seq<string>, feed: seq<seq<Fetch>>)
  {
    forall p :: 0 <= p < |feed| ==> |feed[p]| == |symbols|
  }

  /** The main loop run for `|feed|` passes, `feed[p]` holding pass `p`'s fetches. */
  function Run(st: State, symbols: seq<string>, feed: seq<seq<Fetch>>, pstdev: seq<real> -> real): (r: Report)
    requires IsPstdev(pstdev) && Shaped(symbols, feed)
    ensures r.state.stats.cycles == st.stats.cycles + |feed|
    ensures r.state.stats.longSignals == st.stats.longSignals + Count(r.events, Long)
    ensures r.state.stats.shortSignals == st.stats.shortSignals + Count(r.events, Short)
    decreases |feed|
  {
    if |feed| == 0 then Report(st, [])
    else
      var p := Pass(st, symbols, feed[0], pstdev);
      var rest := Run(p.state, symbols, feed[1..], pstdev);
      CountAppend(p.events, rest.events, Long);
      CountAppend(p.events, rest.events, Short);
      Report(rest.state, p.events + rest.events)
  }

  /** From start-up, the statistics panel shows the number of passes and the
      number of LONG and SHORT alerts printed so far. */
  lemma StatsFromStart(symbols: seq<string>, feed: seq<seq<Fetch>>, pstdev: seq<real> -> real)
    requires IsPstdev(pstdev) && Shaped(symbols, feed)
    ensures var r := Run(Init, symbols, feed, pstdev);
            r.state.stats == Stats(Count(r.events, Long), Count(r.events, Short), |feed|)
  {
  }

  // ------------------------------------------------------ deduplication

  /** Two alerts for the same symbol, direction and candle. */
  predicate SameAlert(a: Event, b: Event)
  {
    a.symbol == b.symbol && a.direction == b.direction && a.closeTime == b.closeTime
  }

  /** No candle is alerted twice for the same symbol and direction. */
  predicate Deduplicated(evs: seq<Event>)
  {
    forall i, j :: 0 <= i < j < |evs| ==> !SameAlert(evs[i], evs[j])
  }

  /** The dedup map remembers every alert of `evs` at or after its candle. */
  predicate Covered(st: State, evs: seq<Event>)
  {
    forall i :: 0 <= i < |evs| ==>
      Key(evs[i].symbol, evs[i].direction) in st.lastAlert &&
      evs[i].closeTime <= st.lastAlert[Key(evs[i].symbol, evs[i].direction)]
  }

  /** The latest close time seen for each symbol whose candles reached the blocks. */
  type Clocks = map<string, int>

  /** Every close time the dedup map holds for a symbol is no later than the
      latest close time seen for that symbol; a symbol never seen has no key. */
  ghost predicate Bounded(st: State, clocks: Clocks)
  {
    forall symbol, d :: Key(symbol, d) in st.lastAlert ==>
      symbol in clocks && st.lastAlert[Key(symbol, d)] <= clocks[symbol]
  }

  /** Observation `o` of `symbol` is not older than the latest candle seen for
      that symbol. Other symbols' close times do not matter. */
  predicate InOrder(clocks: Clocks, symbol: string, o: Observation)
  {
    o.Ready? && symbol in clocks ==> clocks[symbol] <= o.reading.closeTime
  }

  /** The per-symbol clocks after observation `o` of `symbol`. */
  function Tick(clocks: Clocks, symbol: string, o: Observation): Clocks
  {
    if o.Ready? && (symbol !in clocks || clocks[symbol] <= o.reading.closeTime)
    then clocks[symbol := o.reading.closeTime]
    else clocks
  }

  /** The per-symbol clocks after a pass's observations. */
  function Clock(clocks: Clocks, symbols: seq<string>, obs: seq<Observation>): Clocks
    requires |obs| == |symbols|
    decreases |obs|
  {
    if |obs| == 0 then clocks else Clock(Tick(clocks, symbols[0], obs[0]), symbols[1..], obs[1..])
  }

  /** Within a pass, no symbol's close times go back in time. */
  predicate MonotoneFrom(clocks: Clocks, symbols: seq<string>, obs: seq<Observation>)
    requires |obs| == |symbols|
    decreases |obs|
  {
    |obs| == 0 ||
    (InOrder(clocks, symbols[0], obs[0]) && MonotoneFrom(Tick(clocks, symbols[0], obs[0]), symbols[1..], obs[1..]))
  }

  /** An alert in the list counts. */
  lemma {:induction false} CountMember(evs: seq<Event>, j: nat)
    requires j < |evs|
    ensures Count(evs, evs[j].direction) > 0
  {
    if j > 0 {
      CountMember(evs[1..], j - 1);
    }
  }

  /** A step keeps each symbol's close times in the dedup map no later than
      the latest candle seen for that symbol. */
  lemma StepKeepsBounded(st: State, symbol: string, o: Observation, clocks: Clocks)
    requires Bounded(st, clocks)
    ensures Bounded(StepOn(st, symbol, o).state, Tick(clocks, symbol, o))
  {
    var r := StepOn(st, symbol, o);
    var next := Tick(clocks, symbol, o);
    StepStores(st, symbol, o);
    forall s, d | Key(s, d) in r.state.lastAlert
      ensures s in next && r.state.lastAlert[Key(s, d)] <= next[s]
    {
      if s != symbol {
        KeyInjective(s, d, symbol, Long);
        KeyInjective(s, d, symbol, Short);
        assert Key(s, d) in st.lastAlert;
      }
    }
  }

  /** A step on a candle not older than its symbol's latest keeps the map
      covering the log, the step's own alerts included. */
  lemma StepKeepsCovered(st: State, symbol: string, o: Observation, clocks: Clocks, log: seq<Event>)
    requires Bounded(st, clocks) && InOrder(clocks, symbol, o)
    requires Covered(st, log)
    ensures Covered(StepOn(st, symbol, o).state, log + StepOn(st, symbol, o).events)
  {
    var r := StepOn(st, symbol, o);
    StepStores(st, symbol, o);
    StepRecords(st, symbol, o);
    var all := log + r.events;
    forall i | 0 <= i < |all|
      ensures Key(all[i].symbol, all[i].direction) in r.state.lastAlert
      ensures all[i].closeTime <= r.state.lastAlert[Key(all[i].symbol, all[i].direction)]
    {
      if i >= |log| {
        assert all[i] == r.events[i - |log|];
      } else {
        var e := log[i];
        var k := Key(e.symbol, e.direction);
        assert all[i] == e && k in st.lastAlert;
        if r.state.lastAlert[k] != st.lastAlert[k] {
          KeyInjective(e.symbol, e.direction, symbol, Long);
          KeyInjective(e.symbol, e.direction, symbol, Short);
          assert e.symbol == symbol;
        }
      }
    }
  }

  /** An alert on a candle not older than its symbol's latest, and not held
      in the dedup map, repeats nothing in a log the map covers. */
  lemma CoveredIsNotNew(st: State, clocks: Clocks, log: seq<Event>, i: nat, e: Event)
    requires Bounded(st, clocks) && Covered(st, log) && i < |log|
    requires e.symbol in clocks ==> clocks[e.symbol] <= e.closeTime
    requires !Alerted(st, e.symbol, e.direction, e.closeTime)
    ensures !SameAlert(log[i], e)
  {
    assert Key(log[i].symbol, log[i].direction) in st.lastAlert;
  }

  /** A step on a candle not older than its symbol's latest adds no repeat
      to a log the map covers. */
  lemma StepKeepsDeduplicated(st: State, symbol: string, o: Observation, clocks: Clocks, log: seq<Event>)
    requires Bounded(st, clocks) && InOrder(clocks, symbol, o)
    requires Covered(st, log) && Deduplicated(log)
    ensures Deduplicated(log + StepOn(st, symbol, o).events)
  {
    var r := StepOn(st, symbol, o);
    StepRecords(st, symbol, o);
    var all := log + r.events;
    forall i, j | 0 <= i < j < |all|
      ensures !SameAlert(all[i], all[j])
    {
      if j >= |log| {
        var e := r.events[j - |log|];
        assert all[j] == e && i < |log|;
        CountMember(r.events, j - |log|);
        StepOnAlertIff(st, symbol, o, e.direction);
        CoveredIsNotNew(st, clocks, log, i, e);
        assert all[i] == log[i];
      }
    }
  }

  /** The log invariant does not care how the log's pieces are grouped. */
  lemma Regroup(st: State, log: seq<Event>, a: seq<Event>, b: seq<Event>)
    requires Covered(st, log + a + b) && Deduplicated(log + a + b)
    ensures Covered(st, log + (a + b)) && Deduplicated(log + (a + b))
  {
    assert log + a + b == log + (a + b);
  }

  /** A scan in which no symbol's close times go back keeps the log free of
      repeats. */
  lemma {:induction false} ScanKeepsDedup(st: State, symbols: seq<string>, obs: seq<Observation>, clocks: Clocks, log: seq<Event>)
    requires |obs| == |symbols|
    requires Bounded(st, clocks) && MonotoneFrom(clocks, symbols, obs)
    requires Covered(st, log) && Deduplicated(log)
    ensures var r := ScanSymbols(st, symbols, obs);
            Bounded(r.state, Clock(clocks, symbols, obs)) && Covered(r.state, log + r.events) && Deduplicated(log + r.events)
    decreases |symbols|
  {
    if |symbols| == 0 {
      assert log + [] == log;
    } else {
      var s := StepOn(st, symbols[0], obs[0]);
      StepKeepsBounded(st, symbols[0], obs[0], clocks);
      StepKeepsCovered(st, symbols[0], obs[0], clocks, log);
      StepKeepsDeduplicated(st, symbols[0], obs[0], clocks, log);
      ScanKeepsDedup(s.state, symbols[1..], obs[1..], Tick(clocks, symbols[0], obs[0]), log + s.events);
      var rest := ScanSymbols(s.state, symbols[1..], obs[1..]);
      Regroup(rest.state, log, s.events, rest.events);
    }
  }

  /** Over the whole run, no symbol's close times go back in time. */
  ghost predicate MonotoneFeed(clocks: Clocks, symbols: seq<string>, feed: seq<seq<Fetch>>, pstdev: seq<real> -> real)
    requires IsPstdev(pstdev) && Shaped(symbols, feed)
    decreases |feed|
  {
    |feed| == 0 ||
    (var obs := Observed(feed[0], pstdev);
     MonotoneFrom(clocks, symbols, obs) && MonotoneFeed(Clock(clocks, symbols, obs), symbols, feed[1..], pstdev))
  }

  /** A run in which no symbol's close times go back keeps the log free of repeats. */
  lemma {:induction false} RunKeepsDedup(st: State, symbols: seq<string>, feed: seq<seq<Fetch>>, pstdev: seq<real> -> real, clocks: Clocks, log: seq<Event>)
    requires IsPstdev(pstdev) && Shaped(symbols, feed)
    requires Bounded(st, clocks) && MonotoneFeed(clocks, symbols, feed, pstdev)
    requires Covered(st, log) && Deduplicated(log)
    ensures var r := Run(st, symbols, feed, pstdev);
            Covered(r.state, log + r.events) && Deduplicated(log + r.events)
    decreases |feed|
  {
    if |feed| == 0 {
      assert log + [] == log;
    } else {
      var obs := Observed(feed[0], pstdev);
      ScanKeepsDedup(Counted(st), symbols, obs, clocks, log);
      var p := Pass(st, symbols, feed[0], pstdev);
      assert p == ScanSymbols(Counted(st), symbols, obs);
      RunKeepsDedup(p.state, symbols, feed[1..], pstdev, Clock(clocks, symbols, obs), log + p.events);
      var rest := Run(p.state, symbols, feed[1..], pstdev);
      Regroup(rest.state, log, p.events, rest.events);
    }
  }

  /** From start-up, as long as no symbol's close times go back, no candle is
      ever alerted twice for the same symbol and direction. One symbol's
      stale candles do not constrain any other symbol. */
  lemma AlertsNeverRepeat(symbols: seq<string>, feed: seq<seq<Fetch>>, pstdev: seq<real> -> real)
    requires IsPstdev(pstdev) && Shaped(symbols, feed)
    requires MonotoneFeed(map[], symbols, feed, pstdev)
    ensures Deduplicated(Run(Init, symbols, feed, pstdev).events)
  {
    RunKeepsDedup(Init, symbols, feed, pstdev, map[], []);
    var r := Run(Init, symbols, feed, pstdev);
    FromEmptyLog(r.events);
  }

  /** An empty log followed by `evs` is `evs`. */
  lemma FromEmptyLog(evs: seq<Event>)
    ensures Deduplicated([] + evs) ==> Deduplicated(evs)
  {
    assert [] + evs == evs;
  }

  /** A deep dip of symbol `X` whose last candle closes at `t`: price 100
      under a lower band of 110, RSI 10, z-score -4 (the bands 110/120/130
      at width 2 put the deviation at 5), ATR 10 and a swing high of 200, so
      the target is 115, a 15% move. */
  function Dip(t: int): Observation
  {
    Ready(Reading(100.0, t, Snapshot(Bands(110.0, 120.0, 130.0), 10.0, -4.0, 10.0), 200.0, 50.0))
  }

  /** A dip is alerted LONG unless the dedup map already holds its candle. */
  lemma DipAlerts(st: State, t: int)
    requires !Alerted(st, "X", Long, t)
    ensures var r := StepOn(st, "X", Dip(t));
            |r.events| == 1 && r.events[0].symbol == "X" && r.events[0].direction == Long &&
            r.events[0].closeTime == t && Alerted(r.state, "X", Long, t)
  {
    var rd := Dip(t).reading;
    assert Move(Long, 100.0, Target(Long, 100.0, 10.0, 200.0)) == 15.0;
    var st1 := Record(st, Key("X", Long), Long, t);
    assert Consider(st, "X", Long, rd) == Done(st1, [Event("X", Long, 100.0, 115.0, 15.0, t)]);
    assert Consider(st1, "X", Short, rd) == Done(st1, []);
  }

  /** The close times must not go back for `AlertsNeverRepeat` to hold: the
      dedup map keeps only the latest alerted close time, so a symbol whose
      candles close at 1, then 2, then 1 again is alerted twice for the
      candle closing at 1. */
  lemma BackwardClockRepeats()
    ensures var r := ScanSymbols(Init, ["X", "X", "X"], [Dip(1), Dip(2), Dip(1)]);
            |r.events| == 3 && SameAlert(r.events[0], r.events[2]) && !Deduplicated(r.events)
  {
    var s1 := StepOn(Init, "X", Dip(1));
    DipAlerts(Init, 1);
    var s2 := StepOn(s1.state, "X", Dip(2));
    DipAlerts(s1.state, 2);
    var s3 := StepOn(s2.state, "X", Dip(1));
    DipAlerts(s2.state, 1);
    var symbols: seq<string> := ["X", "X", "X"];
    var obs := [Dip(1), Dip(2), Dip(1)];
    assert symbols[1..] == ["X", "X"] && obs[1..] == [Dip(2), Dip(1)];
    assert symbols[1..][1..] == ["X"] && obs[1..][1..] == [Dip(1)];
    assert ScanSymbols(s3.state, [], []) == Report(s3.state, []);
    assert ScanSymbols(s2.state, ["X"], [Dip(1)]) == Report(s3.state, s3.events + []);
    assert ScanSymbols(s1.state, ["X", "X"], [Dip(2), Dip(1)]) == Report(s3.state, s2.events + (s3.events + []));
  }

  /** Going back in time alone does not make the scanner repeat an alert:
      close times 2, then 1 on one symbol break the ordering hypothesis of
      `AlertsNeverRepeat`, yet both alerts are for different candles. A
      repeat needs a candle that was already alerted to come back after a
      later one replaced it in the map, as in `BackwardClockRepeats`. */
  lemma BackwardClockAloneIsSafe()
    ensures !MonotoneFrom(map[], ["X", "X"], [Dip(2), Dip(1)])
    ensures var r := ScanSymbols(Init, ["X", "X"], [Dip(2), Dip(1)]);
            |r.events| == 2 && Deduplicated(r.events)
  {
    BackwardClockBreaksOrder();
    var s1 := StepOn(Init, "X", Dip(2));
    DipAlerts(Init, 2);
    var s2 := StepOn(s1.state, "X", Dip(1));
    DipAlerts(s1.state, 1);
    var xs: seq<string> := ["X", "X"];
    var o21 := [Dip(2), Dip(1)];
    assert xs[1..] == ["X"] && o21[1..] == [Dip(1)];
    assert ScanSymbols(s2.state, [], []) == Report(s2.state, []);
    assert ScanSymbols(s1.state, ["X"], [Dip(1)]) == Report(s2.state, s2.events + []);
    var evs := s1.events + (s2.events + []);
    assert ScanSymbols(Init, xs, o21) == Report(s2.state, evs);
    TwoCandlesDeduplicated(evs);
  }

  /** Two alerts for different candles are no repeat. */
  lemma TwoCandlesDeduplicated(evs: seq<Event>)
    requires |evs| == 2 && evs[0].closeTime != evs[1].closeTime
    ensures Deduplicated(evs)
  {
    forall i, j | 0 <= i < j < |evs|
      ensures !SameAlert(evs[i], evs[j])
    {
      assert i == 0 && j == 1;
    }
  }

  /** Close times 2, then 1 on one symbol break the ordering hypothesis. */
  lemma BackwardClockBreaksOrder()
    ensures !MonotoneFrom(map[], ["X", "X"], [Dip(2), Dip(1)])
  {
    var xs: seq<string> := ["X", "X"];
    var o21 := [Dip(2), Dip(1)];
    assert xs[1..] == ["X"] && o21[1..] == [Dip(1)];
    var d2 := Tick(map[], "X", Dip(2));
    assert d2 == map["X" := 2];
    assert !InOrder(d2, "X", Dip(1));
  }

  /** The ordering hypothesis is per symbol: a pass in which `B`'s candle is
      older than `A`'s satisfies it, so `AlertsNeverRepeat` covers a stale
      pair, while the close times 1, 2, 1 of `BackwardClockRepeats` on one
      symbol do not. */
  lemma StaleSymbolIsInOrder()
    ensures MonotoneFrom(map[], ["A", "B"], [Dip(2), Dip(1)])
    ensures !MonotoneFrom(map[], ["X", "X", "X"], [Dip(1), Dip(2), Dip(1)])
  {
    var ab: seq<string> := ["A", "B"];
    var o21 := [Dip(2), Dip(1)];
    assert ab[1..] == ["B"] && o21[1..] == [Dip(1)];
    var c1 := Tick(map[], "A", Dip(2));
    assert c1 == map["A" := 2];
    assert "B" !in c1;
    assert MonotoneFrom(Tick(c1, "B", Dip(1)), ab[1..][1..], o21[1..][1..]);
    var xs: seq<string> := ["X", "X", "X"];
    var o121 := [Dip(1), Dip(2), Dip(1)];
    assert xs[1..] == ["X", "X"] && o121[1..] == [Dip(2), Dip(1)];
    assert xs[1..][1..] == ["X"] && o121[1..][1..] == [Dip(1)];
    var d1 := Tick(map[], "X", Dip(1));
    var d2 := Tick(d1, "X", Dip(2));
    assert d2 == map["X" := 2];
    assert !InOrder(d2, "X", Dip(1));
  }
}

=== FILE: series.dfy ===
/** Helpers over finite real sequences: the pieces of Python's `sum`,
    `statistics.mean`, `max`, `min` and negative-index slicing that the
    indicators are built from. Arithmetic is ideal (`real`), not IEEE. */
module Series {

  /** Python's `sum` over a list of reals. */
  function Sum(s: seq<real>): real
  {
    if |s| == 0 then 0.0 else s[0] + Sum(s[1..])
  }

  /** `statistics.mean`: the arithmetic mean of a non-empty list. */
  function Mean(s: seq<real>): real
    requires |s| > 0
  {
    Sum(s) / (|s| as real)
  }

  /** Python's `max` over a non-empty list. */
  function Max(s: seq<real>): (m: real)
    requires |s| > 0
    ensures exists i :: 0 <= i < |s| && s[i] == m
    ensures forall i :: 0 <= i < |s| ==> s[i] <= m
  {
    if |s| == 1 then s[0]
    else
      var rest := Max(s[1..]);
      assert forall i :: 1 <= i < |s| ==> s[i] == s[1..][i - 1];
      if s[0] >= rest then s[0] else rest
  }

  /** Python's `min` over a non-empty list. */
  function Min(s: seq<real>): (m: real)
    requires |s| > 0
    ensures exists i :: 0 <= i < |s| && s[i] == m
    ensures forall i :: 0 <= i < |s| ==> m <= s[i]
  {
    if |s| == 1 then s[0]
    else
      var rest := Min(s[1..]);
      assert forall i :: 1 <= i < |s| ==> s[i] == s[1..][i - 1];
      if s[0] <= rest then s[0] else rest
  }

  /** Python's slice `s[-k:]`: the last `k` elements, or the whole list when
      it is shorter than `k`; since `-0 == 0`, `s[-0:]` is the whole list too. */
  function Tail<T>(s: seq<T>, k: nat): (r: seq<T>)
    ensures k == 0 || |s| <= k ==> r == s
    ensures 0 < k <= |s| ==> |r| == k
    ensures r == s[|s| - |r|..]
  {
    if k == 0 || |s| <= k then s else s[|s| - k..]
  }

  /** Python's `s[i]`, where a negative `i` counts from the end (`-1` is the last element). */
  function At<T>(s: seq<T>, i: int): (x: T)
    requires -|s| <= i < |s|
    ensures x in s
  {
    if i < 0 then s[|s| + i] else s[i]
  }

  /** `s[i]` for a negative `i` is the first element of the slice `s[i:]`. */
  lemma AtIsFirstOfTail<T>(s: seq<T>, i: int)
    requires -|s| <= i < 0
    ensures At(s, i) == Tail(s, -i)[0]
  {
  }

  /** A window taken from the end does not depend on anything before it. */
  lemma TailOfAppend<T>(a: seq<T>, b: seq<T>, k: nat)
    requires 0 < k <= |b|
    ensures Tail(a + b, k) == Tail(b, k)
  {
    assert (a + b)[|a + b| - k..] == b[|b| - k..];
  }

  lemma {:induction false} SumAppend(a: seq<real>, b: seq<real>)
    ensures Sum(a + b) == Sum(a) + Sum(b)
  {
    if |a| == 0 {
      assert a + b == b;
    } else {
      assert (a + b)[1..] == a[1..] + b;
      SumAppend(a[1..], b);
    }
  }

  /** A sum of `n` terms each at most `b` is at most `n * b`. */
  lemma {:induction false} SumAtMost(s: seq<real>, b: real)
    requires forall i :: 0 <= i < |s| ==> s[i] <= b
    ensures Sum(s) <= (|s| as real) * b
  {
    if |s| > 0 {
      assert forall i :: 0 <= i < |s| - 1 ==> s[1..][i] == s[i + 1];
      SumAtMost(s[1..], b);
      assert (|s| as real) * b == b + ((|s| - 1) as real) * b;
    }
  }

  /** A sum of `n` terms each at least `b` is at least `n * b`. */
  lemma {:induction false} SumAtLeast(s: seq<real>, b: real)
    requires forall i :: 0 <= i < |s| ==> b <= s[i]
    ensures (|s| as real) * b <= Sum(s)
  {
    if |s| > 0 {
      assert forall i :: 0 <= i < |s| - 1 ==> s[1..][i] == s[i + 1];
      SumAtLeast(s[1..], b);
      assert (|s| as real) * b == b + ((|s| - 1) as real) * b;
    }
  }

  /** A sum of non-negative terms is zero exactly when every term is zero. */
  lemma {:induction false} SumZeroIff(s: seq<real>)
    requires forall i :: 0 <= i < |s| ==> 0.0 <= s[i]
    ensures 0.0 <= Sum(s)
    ensures Sum(s) == 0.0 <==> forall i :: 0 <= i < |s| ==> s[i] == 0.0
  {
    if |s| > 0 {
      assert forall i :: 0 <= i < |s| - 1 ==> s[1..][i] == s[i + 1];
      SumZeroIff(s[1..]);
      if Sum(s) == 0.0 {
        assert s[0] == 0.0 && Sum(s[1..]) == 0.0;
        forall i | 0 <= i < |s|
          ensures s[i] == 0.0
        {
          if i > 0 {
            assert s[1..][i - 1] == s[i];
          }
        }
      }
    }
  }

  /** Sums respect pointwise order. */
  lemma {:induction false} SumMonotone(s: seq<real>, t: seq<real>)
    requires |s| == |t|
    requires forall i :: 0 <= i < |s| ==> s[i] <= t[i]
    ensures Sum(s) <= Sum(t)
  {
    if |s| > 0 {
      assert forall i :: 0 <= i < |s| - 1 ==> s[1..][i] == s[i + 1] && t[1..][i] == t[i + 1];
      SumMonotone(s[1..], t[1..]);
    }
  }

  /** Dividing a sum by its positive count keeps the bound on the count's multiple. */
  lemma DivideBounds(a: real, n: real, lo: real, hi: real)
    requires 0.0 < n && n * lo <= a <= n * hi
    ensures lo <= a / n <= hi
  {
    assert a == (a / n) * n;
  }

  /** Dividing by a positive count keeps the sign and the zero. */
  lemma DivideSign(a: real, n: real)
    requires 0.0 < n
    ensures a / n == 0.0 <==> a == 0.0
    ensures 0.0 <= a ==> 0.0 <= a / n
    ensures 0.0 < a ==> 0.0 < a / n
  {
    assert a == (a / n) * n;
  }

  /** Dividing by the same positive count preserves order. */
  lemma DivideMonotone(a: real, b: real, n: real)
    requires 0.0 < n && a <= b
    ensures a / n <= b / n
  {
    assert a == (a / n) * n && b == (b / n) * n;
  }

  /** The mean of a list bounded by `lo` and `hi` is bounded by them too. */
  lemma MeanWithin(s: seq<real>, lo: real, hi: real)
    requires |s| > 0
    requires forall i :: 0 <= i < |s| ==> lo <= s[i] <= hi
    ensures lo <= Mean(s) <= hi
  {
    SumAtMost(s, hi);
    SumAtLeast(s, lo);
    DivideBounds(Sum(s), |s| as real, lo, hi);
  }

  /** The mean of a list lies between its minimum and its maximum. */
  lemma MeanBounds(s: seq<real>)
    requires |s| > 0
    ensures Min(s) <= Mean(s) <= Max(s)
  {
    MeanWithin(s, Min(s), Max(s));
  }

  /** Every element of `s` equals the first one. */
  predicate Flat(s: seq<real>)
  {
    forall i :: 0 <= i < |s| ==> s[i] == s[0]
  }

  /** The mean of a flat list is its common value. */
  lemma MeanOfFlat(s: seq<real>)
    requires |s| > 0 && Flat(s)
    ensures Mean(s) == s[0]
  {
    MeanWithin(s, s[0], s[0]);
  }
}

=== FILE: signals.dfy ===
/** The condition evaluator: the LONG and SHORT triads over an indicator
    snapshot, the projected target (the lower, for LONG, or higher, for
    SHORT, of the swing extreme and an ATR multiple), the percentage move
    to that target and the minimum-move filter. */
module Signals {
  import opened Series
  import opened Indicators

  datatype Direction = Long | Short

  /** The indicator values one evaluation works from. */
  datatype Snapshot = Snapshot(bands: Bands, rsi: real, z: real, atr: real)

  const Oversold: real := 30.0
  const Overbought: real := 70.0
  const ZLimit: real := 2.0
  /** How many of the latest candles the swing high/low is taken over. */
  const SwingLookback: nat := 50
  const AtrTargetMult: real := 1.5
  const MinLongPct: real := 5.0
  const MinShortPct: real := 5.0

  /** The minimum projected move, in percent, for an alert in direction `d`. */
  function MinPct(d: Direction): real
  {
    match d
    case Long => MinLongPct
    case Short => MinShortPct
  }

  /** The triad: price outside its band, RSI beyond its bound, z-score beyond two. */
  predicate Triggered(d: Direction, price: real, s: Snapshot)
  {
    match d
    case Long => price < s.bands.lower && s.rsi < Oversold && s.z < -ZLimit
    case Short => price > s.bands.upper && s.rsi > Overbought && s.z > ZLimit
  }

  /** The two triads exclude each other: no RSI is both below 30 and above 70. */
  lemma NeverBothDirections(price: real, s: Snapshot)
    ensures !(Triggered(Long, price, s) && Triggered(Short, price, s))
  {
  }

  /** For a positive deviation `std`, `z` beyond two deviations is the price beyond the two-deviation band. */
  lemma ZBeyondTwo(z: real, std: real, price: real, m: real)
    requires 0.0 < std && z * std == price - m
    ensures z < -2.0 <==> price < m - 2.0 * std
    ensures z > 2.0 <==> price > m + 2.0 * std
  {
    ScaleKeepsOrder(z, -2.0, std);
    ScaleKeepsOrder(2.0, z, std);
  }

  /** With a positive window deviation, the z-score is beyond two exactly when
      the last close is more than two deviations from the window's mean. */
  lemma ZscoreBeyondTwo(closes: seq<real>, period: nat, pstdev: seq<real> -> real)
    requires 1 <= period <= |closes| && IsPstdev(pstdev)
    ensures var w := closes[|closes| - period..];
            var z := Zscore(closes, period, pstdev).value;
            var price := closes[|closes| - 1];
            0.0 < Std(w, pstdev) ==>
              (z < -2.0 <==> price < Mean(w) - 2.0 * Std(w, pstdev)) &&
              (z > 2.0 <==> price > Mean(w) + 2.0 * Std(w, pstdev))
  {
    var w := closes[|closes| - period..];
    if 0.0 < Std(w, pstdev) {
      ZscoreScaled(closes, period, pstdev);
      ZBeyondTwo(Zscore(closes, period, pstdev).value, Std(w, pstdev), closes[|closes| - 1], Mean(w));
    }
  }

  /** With the default band width of two deviations, the z-score leg of each
      triad holds exactly when the band leg does: `z < -2` iff the price is
      below the lower band, and `z > 2` iff it is above the upper band. */
  lemma ZscoreLegMatchesBand(closes: seq<real>, period: nat, pstdev: seq<real> -> real)
    requires 1 <= period <= |closes| && IsPstdev(pstdev)
    ensures var b := Bollinger(closes, period, BandMult, pstdev).value;
            var z := Zscore(closes, period, pstdev).value;
            var price := closes[|closes| - 1];
            (z < -ZLimit <==> price < b.lower) && (z > ZLimit <==> price > b.upper)
  {
    var w := closes[|closes| - period..];
    BandsAroundMean(closes, period, BandMult, pstdev);
    if Std(w, pstdev) == 0.0 {
      MeanOfFlat(w);
      assert w[|w| - 1] == closes[|closes| - 1];
    } else {
      ZscoreBeyondTwo(closes, period, pstdev);
    }
  }

  /** Index of the first candle the swing extreme looks at: the last fifty,
      or all of them when there are fewer. */
  function SwingStart(n: nat): (start: nat)
    ensures start <= n
    ensures n - start == if n < SwingLookback then n else SwingLookback
  {
    if n <= SwingLookback then 0 else n - SwingLookback
  }

  /** The latest fifty values are the suffix from `SwingStart`. */
  lemma SwingWindow(s: seq<real>)
    ensures Tail(s, SwingLookback) == s[SwingStart(|s|)..]
  {
  }

  /** The maximum of a suffix is attained in it and bounds it. */
  lemma MaxOfSuffix(s: seq<real>, start: nat)
    requires start < |s|
    ensures exists k :: start <= k < |s| && s[k] == Max(s[start..])
    ensures forall k :: start <= k < |s| ==> s[k] <= Max(s[start..])
  {
    var w := s[start..];
    var j :| 0 <= j < |w| && w[j] == Max(w);
    assert s[start + j] == Max(w);
    forall k | start <= k < |s|
      ensures s[k] <= Max(w)
    {
      assert s[k] == w[k - start];
    }
  }

  /** The minimum of a suffix is attained in it and bounds it. */
  lemma MinOfSuffix(s: seq<real>, start: nat)
    requires start < |s|
    ensures exists k :: start <= k < |s| && s[k] == Min(s[start..])
    ensures forall k :: start <= k < |s| ==> Min(s[start..]) <= s[k]
  {
    var w := s[start..];
    var j :| 0 <= j < |w| && w[j] == Min(w);
    assert s[start + j] == Min(w);
    forall k | start <= k < |s|
      ensures Min(w) <= s[k]
    {
      assert s[k] == w[k - start];
    }
  }

  /** `max(highs[-50:])`: the highest high of the latest fifty candles. */
  function SwingHigh(highs: seq<real>): (r: real)
    requires |highs| > 0
    ensures exists k :: SwingStart(|highs|) <= k < |highs| && highs[k] == r
    ensures forall k :: SwingStart(|highs|) <= k < |highs| ==> highs[k] <= r
  {
    SwingWindow(highs);
    MaxOfSuffix(highs, SwingStart(|highs|));
    Max(Tail(highs, SwingLookback))
  }

  /** `min(lows[-50:])`: the lowest low of the latest fifty candles. */
  function SwingLow(lows: seq<real>): (r: real)
    requires |lows| > 0
    ensures exists k :: SwingStart(|lows|) <= k < |lows| && lows[k] == r
    ensures forall k :: SwingStart(|lows|) <= k < |lows| ==> r <= lows[k]
  {
    SwingWindow(lows);
    MinOfSuffix(lows, SwingStart(|lows|));
    Min(Tail(lows, SwingLookback))
  }

  /** The projected target: for LONG the lower of the swing high and
      `price + 1.5·atr`, for SHORT the higher of the swing low and
      `price - 1.5·atr` — whichever bound is the more conservative. */
  function Target(d: Direction, price: real, atr: real, swing: real): (t: real)
    ensures d == Long ==> t <= swing && t <= price + AtrTargetMult * atr
    ensures d == Short ==> swing <= t && price - AtrTargetMult * atr <= t
    ensures d == Long ==> t == swing || t == price + AtrTargetMult * atr
    ensures d == Short ==> t == swing || t == price - AtrTargetMult * atr
  {
    match d
    case Long =>
      var atrTarget := price + AtrTargetMult * atr;
      if atrTarget < swing then atrTarget else swing
    case Short =>
      var atrTarget := price - AtrTargetMult * atr;
      if swing < atrTarget then atrTarget else swing
  }

  /** A LONG target lies above the price exactly when the swing high does
      and the ATR is positive; a SHORT target lies below it exactly when
      the swing low does and the ATR is positive. */
  lemma TargetBeyondPriceIff(d: Direction, price: real, atr: real, swing: real)
    requires 0.0 <= atr
    ensures d == Long ==> (price < Target(d, price, atr, swing) <==> price < swing && 0.0 < atr)
    ensures d == Short ==> (Target(d, price, atr, swing) < price <==> swing < price && 0.0 < atr)
  {
  }

  /** The projected move to `target`, in percent of `price`, counted in the
      direction of the trade. */
  function Move(d: Direction, price: real, target: real): (pct: real)
    requires price != 0.0
    ensures 0.0 < price ==> (0.0 < pct <==> (d == Long && price < target) || (d == Short && target < price))
  {
    match d
    case Long => (target - price) / price * 100.0
    case Short => (price - target) / price * 100.0
  }

  /** Scaling by a positive factor keeps an inequality. */
  lemma ScaleKeepsOrder(q: real, c: real, p: real)
    requires 0.0 < p
    ensures c <= q <==> c * p <= q * p
  {
    if c <= q {
      assert (q - c) * p >= 0.0;
    } else {
      assert (c - q) * p > 0.0;
    }
  }

  /** For a positive price, a move of at least `minPct` percent means the
      target lies at least `minPct` percent of the price beyond it. */
  lemma MoveAtLeastIff(d: Direction, price: real, target: real, minPct: real)
    requires 0.0 < price
    ensures d == Long ==> (minPct <= Move(d, price, target) <==> price + price * minPct / 100.0 <= target)
    ensures d == Short ==> (minPct <= Move(d, price, target) <==> target <= price - price * minPct / 100.0)
  {
    var gap := if d == Long then target - price else price - target;
    var q := gap / price;
    assert q * price == gap;
    assert Move(d, price, target) == q * 100.0;
    ScaleKeepsOrder(q, minPct / 100.0, price);
    assert minPct <= q * 100.0 <==> minPct / 100.0 <= q;
    assert (minPct / 100.0) * price == price * minPct / 100.0;
  }

  /** A positive threshold that is met forces the target strictly beyond the
      price: above it for LONG, below it for SHORT. */
  lemma ThresholdForcesDirection(d: Direction, price: real, target: real, minPct: real)
    requires 0.0 < price && 0.0 < minPct
    requires minPct <= Move(d, price, target)
    ensures d == Long ==> price < target
    ensures d == Short ==> target < price
  {
    MoveAtLeastIff(d, price, target, minPct);
    assert 0.0 < price * minPct / 100.0;
  }

  /** An alert needs both bounds of the target to clear the threshold: the
      swing extreme and the ATR projection. A large ATR alone cannot pass
      the filter. */
  lemma AlertNeedsBothBounds(d: Direction, price: real, atr: real, swing: real)
    requires 0.0 < price
    requires MinPct(d) <= Move(d, price, Target(d, price, atr, swing))
    ensures d == Long ==> price + price * MinPct(d) / 100.0 <= swing
    ensures d == Long ==> price * MinPct(d) / 100.0 <= AtrTargetMult * atr
    ensures d == Short ==> swing <= price - price * MinPct(d) / 100.0
    ensures d == Short ==> price * MinPct(d) / 100.0 <= AtrTargetMult * atr
  {
    MoveAtLeastIff(d, price, Target(d, price, atr, swing), MinPct(d));
  }

  /** A triad that holds can still be filtered out: at price 100 with an ATR
      of 2 and a swing high of 106 the target is 103, a 3% move, below the
      5% minimum. */
  lemma SubThresholdLongIsDropped()
    ensures Target(Long, 100.0, 2.0, 106.0) == 103.0
    ensures Move(Long, 100.0, 103.0) == 3.0
    ensures Move(Long, 100.0, Target(Long, 100.0, 2.0, 106.0)) < MinPct(Long)
  {
  }
}

=== FILE: symbols.dfy ===
/** The exchange-info filter: which listed symbols the scanner watches.
    A symbol is kept when it is trading, quoted in USDT, and its name
    contains none of the leveraged-token markers as a substring. */
module Symbols {

  /** One entry of the exchange's symbol list, reduced to the fields the filter reads. */
  datatype SymbolInfo = SymbolInfo(symbol: string, status: string, quoteAsset: string)

  /** The substrings that mark a leveraged token. */
  const LeverageMarkers: seq<string> := ["UP", "DOWN", "BULL", "BEAR"]

  /** Python's `x in s` on strings: `x` occurs in `s` as a contiguous block. */
  predicate Contains(s: string, x: string)
    decreases |s|
  {
    if |s| < |x| then false
    else s[..|x|] == x || (|s| > 0 && Contains(s[1..], x))
  }

  /** `x` occurs in `s` starting at index `i`. */
  ghost predicate OccursAt(s: string, x: string, i: int)
  {
    0 <= i && i + |x| <= |s| && s[i..i + |x|] == x
  }

  /** `Contains` finds exactly the substrings that occur at some index. */
  lemma {:induction false} ContainsIff(s: string, x: string)
    ensures Contains(s, x) <==> exists i :: OccursAt(s, x, i)
    decreases |s|
  {
    if |s| < |x| {
    } else if s[..|x|] == x {
      assert OccursAt(s, x, 0);
    } else {
      assert |x| > 0 && |s| > 0;
      ContainsIff(s[1..], x);
      if Contains(s[1..], x) {
        var i :| OccursAt(s[1..], x, i);
        assert s[1..][i..i + |x|] == s[i + 1..i + 1 + |x|];
        assert OccursAt(s, x, i + 1);
      }
      if exists i :: OccursAt(s, x, i) {
        var i :| OccursAt(s, x, i);
        assert i != 0;
        assert s[1..][i - 1..i - 1 + |x|] == s[i..i + |x|];
        assert OccursAt(s[1..], x, i - 1);
      }
    }
  }

  /** `any(x in sym for x in markers)`. */
  predicate Leveraged(sym: string)
  {
    exists m :: m in LeverageMarkers && Contains(sym, m)
  }

  /** The three tests of the filter loop. */
  predicate Keep(info: SymbolInfo)
  {
    info.status == "TRADING" && info.quoteAsset == "USDT" && !Leveraged(info.symbol)
  }

  /** The symbols the filter keeps, in exchange order. */
  function UsdtSymbols(infos: seq<SymbolInfo>): (r: seq<string>)
    ensures |r| <= |infos|
    ensures forall k :: 0 <= k < |r| ==> !Leveraged(r[k])
    ensures forall x :: x in r ==> exists info :: info in infos && Keep(info) && info.symbol == x
    ensures forall i :: 0 <= i < |infos| && Keep(infos[i]) ==> infos[i].symbol in r
  {
    if |infos| == 0 then []
    else
      var rest := UsdtSymbols(infos[1..]);
      assert forall i :: 1 <= i < |infos| ==> infos[i] == infos[1..][i - 1];
      assert forall info :: info in infos[1..] ==> info in infos;
      (if Keep(infos[0]) then [infos[0].symbol] else []) + rest
  }

  /** Filtering a concatenation is concatenating the filtered parts. */
  lemma {:induction false} UsdtSymbolsAppend(a: seq<SymbolInfo>, b: seq<SymbolInfo>)
    ensures UsdtSymbols(a + b) == UsdtSymbols(a) + UsdtSymbols(b)
  {
    if |a| == 0 {
      assert a + b == b;
    } else {
      assert (a + b)[1..] == a[1..] + b;
      UsdtSymbolsAppend(a[1..], b);
    }
  }

  /** `a` is `b` with some elements removed, order kept. */
  ghost predicate Subsequence<T>(a: seq<T>, b: seq<T>)
    decreases |b|
  {
    |a| == 0 || (|b| > 0 && ((a[0] == b[0] && Subsequence(a[1..], b[1..])) || Subsequence(a, b[1..])))
  }

  /** The listed symbol names, in exchange order. */
  function Names(infos: seq<SymbolInfo>): (names: seq<string>)
    ensures |names| == |infos| && forall i :: 0 <= i < |infos| ==> names[i] == infos[i].symbol
  {
    seq(|infos|, i requires 0 <= i < |infos| => infos[i].symbol)
  }

  /** The kept symbols are an order-preserving selection of the listed ones. */
  lemma {:induction false} KeptInOrder(infos: seq<SymbolInfo>)
    ensures Subsequence(UsdtSymbols(infos), Names(infos))
  {
    if |infos| > 0 {
      KeptInOrder(infos[1..]);
      assert Names(infos)[1..] == Names(infos[1..]);
      var r := UsdtSymbols(infos);
      if Keep(infos[0]) {
        assert r[0] == Names(infos)[0] && r[1..] == UsdtSymbols(infos[1..]);
      } else {
        assert r == UsdtSymbols(infos[1..]);
      }
    }
  }

  /** The loop of `get_usdt_symbols` in zora_bot.py, with its three
      `continue`s, computes `UsdtSymbols`. */
  method GetUsdtSymbols(infos: seq<SymbolInfo>) returns (symbols: seq<string>)
    ensures symbols == UsdtSymbols(infos)
  {
    symbols := [];
    for i := 0 to |infos|
      invariant symbols == UsdtSymbols(infos[..i])
    {
      var s := infos[i];
      assert infos[..i + 1] == infos[..i] + [s];
      UsdtSymbolsAppend(infos[..i], [s]);
      assert [s][1..] == [];
      if s.status != "TRADING" {
        continue;
      }
      if s.quoteAsset != "USDT" {
        continue;
      }
      var sym := s.symbol;
      if exists m :: m in LeverageMarkers && Contains(sym, m) {
        continue;
      }
      symbols := symbols + [sym];
    }
    assert infos[..|infos|] == infos;
  }

  /** Leveraged tokens such as `BTCUPUSDT` and `ETHBEARUSDT` are dropped. */
  lemma LeveragedTokensDropped()
    ensures Leveraged("BTCUPUSDT") && Leveraged("ETHBEARUSDT")
    ensures !Keep(SymbolInfo("BTCUPUSDT", "TRADING", "USDT"))
  {
    assert "BTCUPUSDT"[3..] == "UPUSDT";
    ContainsIff("BTCUPUSDT", "UP");
    assert OccursAt("BTCUPUSDT", "UP", 3);
    assert "UP" in LeverageMarkers;
    ContainsIff("ETHBEARUSDT", "BEAR");
    assert OccursAt("ETHBEARUSDT", "BEAR", 3);
    assert "BEAR" in LeverageMarkers;
  }

  /** The substring test also drops ordinary tickers whose name merely
      contains a marker: `JUPUSDT` contains `UP`, `SUPERUSDT` contains `UP`. */
  lemma SubstringTestDropsOrdinaryTickers()
    ensures Leveraged("JUPUSDT") && Leveraged("SUPERUSDT")
    ensures UsdtSymbols([SymbolInfo("JUPUSDT", "TRADING", "USDT")]) == []
  {
    ContainsIff("JUPUSDT", "UP");
    assert OccursAt("JUPUSDT", "UP", 1);
    ContainsIff("SUPERUSDT", "UP");
    assert OccursAt("SUPERUSDT", "UP", 1);
    assert "UP" in LeverageMarkers;
  }

  /** A name with a marker at index `i` has the marker's first two letters at `i` and `i + 1`. */
  lemma OccursAtPair(s: string, m: string, i: int)
    requires |m| >= 2
    ensures OccursAt(s, m, i) ==> i + 1 < |s| && s[i] == m[0] && s[i + 1] == m[1]
  {
    if OccursAt(s, m, i) {
      assert s[i..i + |m|][0] == s[i] && s[i..i + |m|][1] == s[i + 1];
    }
  }

  /** A plain trading USDT pair with no marker in its name is kept. */
  lemma PlainPairKept()
    ensures !Leveraged("BTCUSDT")
    ensures UsdtSymbols([SymbolInfo("BTCUSDT", "TRADING", "USDT")]) == ["BTCUSDT"]
  {
    var s := "BTCUSDT";
    forall m, i | m in LeverageMarkers
      ensures !OccursAt(s, m, i)
    {
      OccursAtPair(s, m, i);
      assert m[1] == 'P' || m[1] == 'O' || m[1] == 'U' || m[1] == 'E';
      if i == 0 { assert s[1] == 'T'; }
      else if i == 1 { assert s[2] == 'C'; }
      else if i == 2 { assert s[2] == 'C' && s[3] == 'U'; }
      else if i == 3 { assert s[4] == 'S'; }
      else if i == 4 { assert s[4] == 'S' && s[5] == 'D'; }
      else if i == 5 { assert s[6] == 'T'; }
    }
    forall m | m in LeverageMarkers
      ensures !Contains(s, m)
    {
      ContainsIff(s, m);
    }
  }
}

=== FILE: wrappers.dfy ===
/** Optional values. `None` plays the part of Python's `None`, which the
    indicator functions return when the price history is too short. */
module Wrappers {

  datatype Option<+T> = None | Some(value: T)
}
